=== FILE: README.md ===
# nestjs-starter authentication core in Dafny

This project models the authentication and session core of a NestJS starter
backend and proves properties of it. It covers six pieces:

- **User table** (`UsersService`). Each user row carries its password value, or no password row at all.
- **Auth service** (`AuthService`). Login, token refresh, logout, registration, e-mail verification and password reset. The service owns the session and password-reset tables. The user table and the verification-code table belong to their own services.
- **Verification codes** (`VerificationCodeService`). One-time codes that expire 15 minutes after they are issued.
- **Transaction runner** (`TransactionRunner`). `verifyEmail` and the user service use it. On rollback it hands back a snapshot of the transactional tables.
- **JWT wrapper**. Only its constant choices are modelled: which secret signs which token, and how long each token lives.
- **Query-parameter decorators**. `PaginationParams`, `SortingParams` and `FilteringParams` (with `getWhere`), modelled as pure parsers. The filter loop is a method proved against a fold.

Tables are sequences in insertion order. Ids come from a per-table counter,
so they are unique and increase along the table. "Newest first" (`created_at
DESC`) is the reverse of table order. Time is an integer `now` in
milliseconds. The caller supplies:

- bcrypt's comparison, as the `passwordMatches` function;
- bcrypt hashes;
- the random reset token and verification code;
- the JWT library, as a `Signer` value.

The main results:

- **Session eviction.** `deactivateOldTokens` is computed as the code does it: a newest-first list, `slice(4)`, then a bulk update by id. The model proves this equals a reference definition. When a user has 5 or more active sessions, exactly the 4 newest stay active. Otherwise nothing changes. Other users' rows and inactive rows are never touched.
- **Session cap.** No user ever has more than 5 active sessions. This is an invariant of the service, preserved by login, refresh, logout and e-mail verification.
- **Password reset tokens.** No user ever has two active reset tokens. A token works once.
- **Verification codes.** A code works once and expires strictly.
- **Rollback.** A failed `verifyEmail` restores the user and code tables. It does not undo the session writes, because those bypass the transaction.
- **Login error order.** A wrong password is reported before the account state.

## Model

| member | source | states |
|---|---|---|
| Text.Split | src/common/decorators/filtering-params.decorator.ts:106 | `String.split` on one character: at least one part, no part contains the separator, and a single part exactly when the separator is absent |
| Text.JoinSplit | src/common/decorators/filtering-params.decorator.ts:106 | joining the parts of a split with the separator gives back the original string |
| Pagination.PaginationParams | src/common/decorators/pagination-params.decorator.ts:17-34 | accepted exactly when page and size parse and are non-negative and size is at most 250; the invalid-parameter error takes precedence over the chunk-size error; limit is the size, offset is `(page - 1) * size`, the page is echoed |
| Pagination.PagesAreAdjacent | src/common/decorators/pagination-params.decorator.ts:31-32 | consecutive pages are adjacent windows: each page's offset plus its limit is the next page's offset |
| Sorting.SortingParams | src/common/decorators/sorting-params.decorator.ts:11-30 | a missing or empty sort gives null; a non-object list or a malformed sort is refused; an accepted sort is an allowed word field, a colon and a direction, mapped alone to the upper-cased direction |
| Sorting.SortRoundTrip | src/common/decorators/sorting-params.decorator.ts:20-29 | `field:dir` on an allowed field yields exactly `{field: DIR}`; on any other field it is refused with the field in the message |
| Sorting.MixedCaseRejected | src/common/decorators/sorting-params.decorator.ts:20-21 | a mixed-case direction such as `Asc` is refused as malformed |
| Sorting.WordPrefixEndsAtColon | src/common/decorators/sorting-params.decorator.ts:20-24 | the field matched by the pattern is the whole run of word characters before the first colon |
| Filtering.NonBlankItems | src/common/decorators/filtering-params.decorator.ts:66 | every kept item is non-blank and comes from the input; the result is empty exactly when every item is blank |
| Filtering.NonBlankItemsCount | src/common/decorators/filtering-params.decorator.ts:66 | each non-blank item is kept exactly as many times as it occurs, and no blank one is kept |
| Filtering.NonBlankItemsAppend | src/common/decorators/filtering-params.decorator.ts:66 | order is kept: an item added at the end of the input ends up at the end of the result exactly when it is not blank |
| Filtering.GetWhere | src/common/decorators/filtering-params.decorator.ts:46-80 | the clause of every rule other than the list and range rules: blank `eq`/`neq` values give `{}`, otherwise an equality or its negation; `gt`/`gte`/`lt`/`lte` give the matching comparison on the unchanged value; `like`/`nlike` give a case-insensitive match of `%value%` or its negation; `isnull`/`isnotnull` ignore the value; unknown rules give `{}` |
| Filtering.ListWhere | src/common/decorators/filtering-params.decorator.ts:65-72 | `in` gives `In` and `nin` gives `Not(In)` of exactly the non-blank comma items of the value, in order (none holds a comma); both give `{}` exactly when every item is blank |
| Filtering.BetweenWhere | src/common/decorators/filtering-params.decorator.ts:73-77 | `between` gives a range exactly when the first two comma parts are non-empty, and the range is `Between` of exactly those two parts, which is how the value begins |
| Filtering.ParseFilter | src/common/decorators/filtering-params.decorator.ts:106-110 | refused exactly when the filter has fewer than three `:` parts or an empty path or rule; otherwise the first three parts, none containing `:` |
| Filtering.ParseFilterRoundTrip | src/common/decorators/filtering-params.decorator.ts:106-110 | `path:rule:value` is read back as exactly those three parts, and anything after a third `:` is ignored |
| Filtering.Place | src/common/decorators/filtering-params.decorator.ts:119-129 | walking a dotted path adds only the first segment at the top level; storing a clause adds its field |
| Filtering.PlaceLookupElsewhere | src/common/decorators/filtering-params.decorator.ts:119-156 | storing under a dotted path changes what no other path finds, so the other entries of every record on the way are kept |
| Filtering.PlaceNoLeafKeepsPath | src/common/decorators/filtering-params.decorator.ts:119-129 | walking a path without storing anything keeps what the full path finds, so a skipped filter leaves an earlier clause on the same path |
| Filtering.PlaceThenLookup | src/common/decorators/filtering-params.decorator.ts:119-156 | after storing a clause, it is found under its full dotted path, whatever was stored there before |
| Filtering.PlaceKeepsOthers | src/common/decorators/filtering-params.decorator.ts:119-129 | storing under one top-level key leaves every other top-level entry unchanged |
| Filtering.Step | src/common/decorators/filtering-params.decorator.ts:101-157 | a filter is accepted only when its parts parse and its path is in the allowed list |
| Filtering.StepAcceptsValid | src/common/decorators/filtering-params.decorator.ts:106-156 | a filter whose parts parse, whose last path segment is non-empty, whose path is allowed and whose rule is known is accepted |
| Filtering.StepRejects | src/common/decorators/filtering-params.decorator.ts:106-137 | malformed parts, an empty last segment, a path outside the list and an unknown rule each fail with their own message, in that order |
| Filtering.StepAccepts | src/common/decorators/filtering-params.decorator.ts:119-156 | an accepted filter with a non-empty clause is found under its full dotted path; a skipped filter keeps whatever its own path held before and adds at most the first path segment at the top level |
| Filtering.Parse | src/common/decorators/filtering-params.decorator.ts:86-97 | no `filters` query (or a nested object) gives null; filters with a non-array field list are refused |
| Filtering.FilteringParams | src/common/decorators/filtering-params.decorator.ts:86-160 | the loop over the entries computes exactly the fold `Parse` |
| Filtering.FoldOnlyAllowed | src/common/decorators/filtering-params.decorator.ts:131-133 | in an accepted result, every entry was a string whose path is in the allowed list |
| Jwt.AccessTokenTtl | src/auth/services/jwt.service.ts:16-19 | access tokens live 7 days in development and 15 minutes otherwise, which is shorter than a refresh token |
| Jwt.VerifyRefreshToken | src/auth/services/jwt.service.ts:42-52 | succeeds exactly when the library verifies the token with the refresh secret; every failure is `InvalidRefreshToken` |
| Jwt.RefreshTokenRoundTrip | src/auth/services/jwt.service.ts:23-27 | a refresh token verifies to its claims for 7 days after it is issued, if the library's verification inverts its signing |
| Transactions.TransactionRunner.constructor | src/database/transaction-factory.ts:99-103 | a new runner has no transaction and is not released |
| Transactions.TransactionRunner.StartTransaction | src/database/transaction-factory.ts:70-73 | a no-op while a transaction is active; otherwise opens one at the given level and records the snapshot |
| Transactions.TransactionRunner.CommitTransaction | src/database/transaction-factory.ts:75-78 | a no-op once released; fails with "transaction not started" when none is active; otherwise closes the transaction |
| Transactions.TransactionRunner.RollbackTransaction | src/database/transaction-factory.ts:80-83 | a no-op once released; fails when none is active; otherwise closes the transaction and hands back the snapshot taken at its start |
| Transactions.TransactionRunner.ReleaseTransaction | src/database/transaction-factory.ts:85-88 | sets `hasTransactionDestroyed` and releases the connection; the transaction state is unchanged |
| Transactions.ReleaseIsAbsorbing | src/database/transaction-factory.ts:67-88 | after a release, commit and rollback both report success without doing anything, a second release changes nothing, and the open transaction and its snapshot are as before |
| Transactions.WithTransactions | src/database/transaction-factory.ts:10-46 | each helper sends its unchanged operation to the transaction manager exactly when one is supplied |
| Users.FindById | src/users/users.service.ts:63-66 | finds a row with that id, and none exactly when no row has it |
| Users.FindByEmail | src/users/users.service.ts:75-77 | finds the first row with that email, and none exactly when no row has it |
| Users.MarkVerified | src/auth/services/auth.service.ts:244-249 | sets `is_verified` on the rows with that id and changes nothing else |
| Users.UsersService.Create | src/users/users.service.ts:22-61 | a taken, non-empty email is a conflict and adds no row; otherwise appends one active row under the next id with the given names, email and verification flag, and a password only when one is given; the result has no password |
| Users.UsersService.FindOne | src/users/users.service.ts:63-73 | id 0 or an unknown id fails with `UserNotFound`; otherwise returns that row without its password |
| Users.UsersService.FindOneByEmail | src/users/users.service.ts:75-78 | null exactly when no row has the email; otherwise the first such row without its password |
| Users.UsersService.FindOneByEmailWithPassword | src/users/users.service.ts:80-88 | an unknown email fails Unauthorized with no error code; otherwise returns the row with its password |
| Users.UsersService.Update | src/users/users.service.ts:90-132 | an unknown id fails NotFound; otherwise overwrites email and names and, when a password is given, its hash; a user without a password row cannot take one (internal error); nothing changes on failure |
| Users.UsersService.UpdatePassword | src/users/users.service.ts:134-146 | an unknown id fails with `UserNotFound`; otherwise only that user's password value changes |
| Users.FoundByIdIsUnique | src/users/users.service.ts:135-138 | ids are unique, so a lookup by id designates exactly one row |
| VerificationCodes.FindUsable | src/auth/services/verification-code.service.ts:36-44 | finds a row matching email, code and type that is active and expires strictly after `now`; none exactly when no row qualifies |
| VerificationCodes.DeactivateCode | src/auth/services/verification-code.service.ts:50-55 | deactivates the rows with that id and type and nothing else |
| VerificationCodes.VerificationCodeService.CreateVerificationCode | src/auth/services/verification-code.service.ts:17-28 | appends one active row that expires 15 minutes after `now`, leaves the rest unchanged and returns the code |
| VerificationCodes.VerificationCodeService.VerifyCode | src/auth/services/verification-code.service.ts:30-58 | fails with `InvalidVerificationCode` and changes nothing when no row is usable; otherwise deactivates that row by id and type and returns it as it was read |
| VerificationCodes.DeactivateCodeOnlyFound | src/auth/services/verification-code.service.ts:50-55 | with unique ids, the update by id and type changes only the matched row |
| VerificationCodes.SingleUse | src/auth/services/verification-code.service.ts:36-55 | a second verification with the same inputs finds another row or none |
| VerificationCodes.FreshCodeWindow | src/auth/services/verification-code.service.ts:24 | a new code verifies before `now + 15 min` and no longer from that instant on (the comparison is strict) |
| VerificationCodes.FindUsableAppend | src/auth/services/verification-code.service.ts:36-44 | after a row is appended, earlier usable rows are still found first |
| Sessions.NewestFirst | src/auth/services/auth.service.ts:58-61 | lists only the user's active sessions, all taken from the table |
| Sessions.DeactivateIds | src/auth/services/auth.service.ts:65-68 | deactivates exactly the rows whose id is in the set |
| Sessions.DeactivateToken | src/auth/services/auth.service.ts:143 | deactivates exactly the rows holding the refresh token |
| Sessions.KeepNewest | src/auth/services/auth.service.ts:57-70 | reference eviction: only active rows of the user may change, and only to inactive |
| Sessions.FindActiveByToken | src/auth/services/auth.service.ts:108-111 | finds an active row holding the token; none exactly when no row qualifies |
| Sessions.NewestFirstAppend | src/auth/services/auth.service.ts:47-55 | a new session comes first in its user's newest-first list |
| Sessions.DeactivationCount | src/auth/services/auth.service.ts:65-68 | deactivating rows never raises anybody's number of active sessions |
| Sessions.DeactivationElsewhere | src/auth/services/auth.service.ts:65-68 | deactivating no active row of a user leaves that user's list unchanged |
| Sessions.DeactivateOneCount | src/auth/services/auth.service.ts:132 | deactivating one active session lowers its user's count by exactly one |
| Sessions.DeactivateOlderIsKeepNewest | src/auth/services/auth.service.ts:63-68 | with increasing ids, deactivating the ids from position k of the newest-first list is the reference eviction keeping k |
| Sessions.KeepNewestKeepsPrefix | src/auth/services/auth.service.ts:63-64 | after keeping k, the user's active sessions are exactly the first k of the newest-first list |
| Sessions.KeepNewestElsewhere | src/auth/services/auth.service.ts:58-59 | keeping one user's newest sessions leaves every other user's list unchanged |
| Sessions.DeactivateOldTokensSpec | src/auth/services/auth.service.ts:57-70 | with at least 5 active sessions, exactly the 4 newest stay active; below 5 nothing changes; other users and inactive rows are untouched |
| Sessions.EvictThenAddKeepsCap | src/auth/services/auth.service.ts:98-99 | eviction followed by one new session keeps every user at or below 5 active sessions |
| Sessions.ReplaceKeepsCap | src/auth/services/auth.service.ts:132-133 | replacing one active session by a new one of the same user keeps the cap |
| Sessions.DeactivationKeepsCap | src/auth/services/auth.service.ts:143 | deactivation keeps the cap |
| Sessions.DeactivateIdsSingle | src/auth/services/auth.service.ts:121 | with unique ids, the update by the found row's id changes that row alone |
| Sessions.RevokedNotFoundAgain | src/auth/services/auth.service.ts:108-122 | once the found session is deactivated, the same refresh token no longer finds it |
| Sessions.DeactivateTokenIdempotent | src/auth/services/auth.service.ts:142-144 | logging out twice is logging out once |
| Sessions.DeactivateTokenFindsNothing | src/auth/services/auth.service.ts:142-144 | after logout no active session holds the token |
| Sessions.DeactivationKeepsIds | src/auth/services/auth.service.ts:65-68 | deactivation keeps ids increasing and below the counter |
| ResetTokens.FindActiveToken | src/auth/services/auth.service.ts:191-194 | finds the first active row holding the token; none exactly when no row qualifies |
| ResetTokens.DeactivateUserTokens | src/auth/services/auth.service.ts:175 | deactivates exactly the user's active tokens |
| ResetTokens.DeactivateTokenId | src/auth/services/auth.service.ts:204 | deactivates exactly the row with that id |
| ResetTokens.IssueKeepsOneActive | src/auth/services/auth.service.ts:175-184 | after a request, the new token is the user's only active one, and no user has two |
| ResetTokens.EarlierTokenRevoked | src/auth/services/auth.service.ts:175-184 | after a second request, the first token no longer finds an active token of that user |
| ResetTokens.DeactivateTokenIdKeepsInvariants | src/auth/services/auth.service.ts:204 | using a token keeps ids and the one-active-token rule |
| ResetTokens.ResetSingleUse | src/auth/services/auth.service.ts:191-204 | once used, the token no longer finds the row it used |
| Auth.Authenticate | src/auth/services/auth.service.ts:72-86 | an unknown email is a bare Unauthorized; for the account found, a missing password row is an internal error, then a wrong password, then a blocked user, then an unverified user is refused in that order, and an active, verified user whose password matches logs in |
| Auth.VerificationTarget | src/auth/services/auth.service.ts:227-242 | an unknown email is `UserNotFound`; an already verified user is `UserAlreadyExists` even when a usable code exists; otherwise no usable code is `InvalidVerificationCode` and the first usable code is verified for that user |
| Auth.AuthService.constructor | src/auth/services/auth.service.ts:28-38 | a service over valid user and code tables starts with empty session and reset-token tables |
| Auth.AuthService.DeactivateOldTokens | src/auth/services/auth.service.ts:57-70 | the code's eviction; afterwards the user has room for one more session and the cap holds |
| Auth.AuthService.SaveRefreshToken | src/auth/services/auth.service.ts:47-55 | appends one active session under the next id, expiring 7 days after `now` |
| Auth.AuthService.Login | src/auth/services/auth.service.ts:72-102 | a failed check returns its error and leaves the sessions untouched; success returns the token pair for the user, evicts and adds one session with the request's device and IP, keeping the cap |
| Auth.AuthService.RefreshToken | src/auth/services/auth.service.ts:104-140 | every failure is `InvalidRefreshToken`; a bad token or no active session changes nothing; a device or IP mismatch deactivates the session; otherwise the session is replaced by a new one of the same user with the same device and IP |
| Auth.AuthService.Logout | src/auth/services/auth.service.ts:142-144 | never fails; deactivates every session holding the token, after which none is found |
| Auth.AuthService.Register | src/auth/services/auth.service.ts:146-167 | a taken email fails with `UserAlreadyExists` and changes nothing; otherwise adds an unverified user and one active e-mail code and returns the email with `is_verified = false` |
| Auth.AuthService.RequestPasswordReset | src/auth/services/auth.service.ts:169-188 | an unknown email changes nothing and does not fail; otherwise revokes the user's tokens and adds one active token valid one hour |
| Auth.AuthService.ResetPassword | src/auth/services/auth.service.ts:190-205 | no active token or `expires_at < now` fails with `InvalidResetToken` (a token at exactly `expires_at` is accepted); a failed password update leaves the token active; otherwise only that user's password changes and the token is deactivated |
| Auth.AuthService.ResendVerificationCode | src/auth/services/auth.service.ts:207-220 | unknown email is `UserNotFound`, a verified user is `UserAlreadyExists`, both changing nothing; otherwise appends one active code |
| Auth.AuthService.Abandon | src/auth/services/auth.service.ts:266-271 | rolls back and releases the runner |
| Auth.AuthService.VerifyEmail | src/auth/services/auth.service.ts:222-273 | the three checks fail before any write; success marks the user verified, consumes the code, evicts and adds one session; a failure while saving the session rolls back the user and code tables, but the eviction remains |
| Auth.AuthService.SignInVerified | src/auth/services/auth.service.ts:251-272 | the part of `verifyEmail` after the code is consumed: commit with one new session, or rollback to the snapshot when the save fails |

## Left out

- Mail delivery (`MailService`) is left out: sending a mail has no effect in the model.
- The JWT library is a `Signer` value, and `Sound` states what is required of it. Token expiry inside the library is modelled only through `now`. `verifyAccessToken` and the auth guard are not part of this model.
- bcrypt and `crypto.randomBytes` are left out. Hashes, the comparison and the random values are supplied by the caller.
- Concurrency is left out. Every flow is one sequential step, so races under READ COMMITTED are not modelled, including two logins evicting at once.
- Storage failures are modelled in one place only: the failed session save in `VerifyEmail`. Elsewhere a database error is not modelled. `refreshToken` would turn any such error into `InvalidRefreshToken`; other flows would give an internal error.
- The database's unique constraint on `users.email` is not enforced by the model. Creating a second user with an empty email, or updating a user to a taken email, succeeds in the model but fails in the database.
- `findOne` without an ORDER BY returns whatever row the database picks. The model always takes the first match in insertion order: the first verification code, reset token or session with the token.
- `created_at DESC` is modelled as reverse insertion order. Two sessions created in the same millisecond would have no defined order in the source.
- `Users.UsersService.Update`: the update DTO and its validation are not part of this model. The member takes the fields as given and the hash as a parameter.
- `Auth.AuthService.ResetPassword`: the user relation is loaded with the token in the source and cascades on delete. The model looks the user up by `user_id` and propagates `updatePassword`'s errors.
- `Auth.AuthService.VerifyEmail`: only a failure of the final session save is modelled as a fault. A failure of the eviction update or of the commit is not.
- `Sorting.SortingParams`: an allowed-parameter argument that is null or a non-array object passes the `typeof` check and then fails inside `includes` with an internal error. The model has only "an array" or "not an object". A `sort` given twice (an array) is not modelled.
- `Filtering.Place`: when a dotted path runs through a stored clause that is a TypeORM operator object, the source sets a property on that operator object. The model replaces the operator by an empty record.
- `Pagination.PaginationParams`: `parseInt` itself is not modelled. The inputs are already parsed (`None` for NaN).
- `Pagination.PaginationParams`: page, size and offset are exact unbounded integers, not JavaScript doubles. Precision loss above 2^53 is not modelled. Neither is the `Infinity` that `parseInt` returns for a very long digit string: that value passes the `isNaN` and `< 0` checks, and a page of `Infinity` with size 0 gives an offset of `NaN`. The contract promises `offset == (page - 1) * size` only for exact integers.
- The `password` column is modelled as the user's optional password value. The separate `Password` entity and its `created_at`/`updated_at` columns are not modelled.
- `updated_at` columns, the response interceptor, controllers, guards, modules and environment validation are not part of this model.

=== FILE: auth.dfy ===
/** `AuthService` (src/auth/services/auth.service.ts): login, token refresh,
    logout, registration, password reset and e-mail verification over the
    user, session, reset-token and verification-code tables.

    Outside the model and supplied by the caller: the clock (`now`, in
    milliseconds), bcrypt (`passwordMatches` for `bcrypt.compare`, and the
    hash itself for `bcrypt.hash`), the random reset token and verification
    code, and the JWT library (the `Signer`). Mail is not modelled. */
module Auth {
  import opened Common
  import opened Jwt
  import opened Transactions
  import Users
  import VerificationCodes
  import Sessions
  import ResetTokens

  /** What the service reads from an Express request. */
  datatype Request = Request(userAgent: Option<string>, ip: Option<string>, remoteAddress: Option<string>)

  /** `req.headers['user-agent'] || 'unknown'`. */
  function DeviceInfo(req: Request): string
  {
    if Users.Provided(req.userAgent) then req.userAgent.value else "unknown"
  }

  /** `req.ip || req.connection.remoteAddress`, as `refreshToken` reads it. */
  function RefreshIp(req: Request): Option<string>
  {
    if Users.Provided(req.ip) then req.ip else req.remoteAddress
  }

  /** The session was opened from this device and address. A session stored
      without an address never matches: the stored value is null and the
      code compares it with `!==`. */
  predicate SameClient(stored: Sessions.Session, deviceInfo: string, ip: Option<string>)
  {
    stored.device_info == deviceInfo && stored.ip_address.Some? && stored.ip_address == ip
  }

  /** The token payload: `id`, `first_name`, `last_name`, `email`. */
  function ClaimsOf(user: Users.User): Claims
  {
    Claims(user.id, user.first_name, user.last_name, user.email)
  }

  /** `saveRefreshToken`: an active session that lives `SessionTtl`. */
  function NewSession(id: nat, token: string, userId: nat, deviceInfo: string, ip: Option<string>, now: int): Sessions.Session
  {
    Sessions.Session(id, token, userId, deviceInfo, ip, true, now, now + Sessions.SessionTtl)
  }

  /** The checks of `login`, in the code's order: unknown email, missing
      password row, wrong password, blocked user, unverified user. */
  function Authenticate(users: seq<Users.User>, email: string, password: string,
                        passwordMatches: (string, string) -> bool): (r: Result<Users.User>)
    ensures r.Ok? ==>
              && r.value in users && r.value.email == email
              && r.value.password.Some? && passwordMatches(password, r.value.password.value)
              && r.value.is_active && r.value.is_verified
    ensures (forall i | 0 <= i < |users| :: users[i].email != email) <==> r == Err(UnauthorizedDefault)
    // a wrong password is reported whatever the state of the account
    ensures forall i | 0 <= i < |users| && users[i].email == email ::
              Users.FindByEmail(users, email) == Some(i) && users[i].password.Some? && !passwordMatches(password, users[i].password.value)
              ==> r == Err(Raise(Unauthorized, WrongPassword))
    ensures r.Err? ==> r.error in {UnauthorizedDefault, Internal, Raise(Unauthorized, WrongPassword),
                                   Raise(Unauthorized, BlockedUser), Raise(Unauthorized, UserNotVerified)}
    // for the account found, the checks apply in order: password row, password,
    // blocked, unverified; an account that passes all of them logs in
    ensures Users.FindByEmail(users, email).Some? ==>
              var u := users[Users.FindByEmail(users, email).value];
              && (u.password.None? ==> r == Err(Internal))
              && (u.password.Some? && passwordMatches(password, u.password.value) ==>
                    && (!u.is_active ==> r == Err(Raise(Unauthorized, BlockedUser)))
                    && (u.is_active && !u.is_verified ==> r == Err(Raise(Unauthorized, UserNotVerified)))
                    && (u.is_active && u.is_verified ==> r == Ok(u)))
  {
    match Users.FindByEmail(users, email)
    case None => Err(UnauthorizedDefault)
    case Some(k) =>
      var user := users[k];
      if user.password.None? then Err(Internal)
      else if !passwordMatches(password, user.password.value) then Err(Raise(Unauthorized, WrongPassword))
      else if !user.is_active then Err(Raise(Unauthorized, BlockedUser))
      else if !user.is_verified then Err(Raise(Unauthorized, UserNotVerified))
      else Ok(user)
  }

  /** The user and the code `verifyEmail` works on, or the error it stops
      with: unknown email, user already verified, no usable code. */
  function VerificationTarget(users: seq<Users.User>, codes: seq<VerificationCodes.VerificationCode>,
                              email: string, code: string, now: int)
    : (r: Result<(Users.User, VerificationCodes.VerificationCode)>)
    ensures r.Ok? ==>
              && r.value.0 in users && r.value.0.email == email && !r.value.0.is_verified
              && r.value.1 in codes && VerificationCodes.Usable(r.value.1, email, code, VerificationCodes.Email, now)
    ensures (forall i | 0 <= i < |users| :: users[i].email != email) ==> r == Err(Raise(NotFound, UserNotFound))
    ensures (forall i | 0 <= i < |codes| :: !VerificationCodes.Usable(codes[i], email, code, VerificationCodes.Email, now)) ==> r.Err?
    ensures r.Err? ==> r.error in {Raise(NotFound, UserNotFound), Raise(BadRequest, UserAlreadyExists),
                                   Raise(BadRequest, InvalidVerificationCode)}
    // for the account found: already verified wins over any code; otherwise
    // the first usable code decides
    ensures Users.FindByEmail(users, email).Some? ==>
              var u := users[Users.FindByEmail(users, email).value];
              var c := VerificationCodes.FindUsable(codes, email, code, VerificationCodes.Email, now);
              && (u.is_verified ==> r == Err(Raise(BadRequest, UserAlreadyExists)))
              && (!u.is_verified && c.None? ==> r == Err(Raise(BadRequest, InvalidVerificationCode)))
              && (!u.is_verified && c.Some? ==> r == Ok((u, codes[c.value])))
  {
    match Users.FindByEmail(users, email)
    case None => Err(Raise(NotFound, UserNotFound))
    case Some(k) =>
      if users[k].is_verified then Err(Raise(BadRequest, UserAlreadyExists))
      else
        match VerificationCodes.FindUsable(codes, email, code, VerificationCodes.Email, now)
        case None => Err(Raise(BadRequest, InvalidVerificationCode))
        case Some(c) => Ok((users[k], codes[c]))
  }

  class AuthService {
    const users: Users.UsersService
    const codes: VerificationCodes.VerificationCodeService
    const config: Config
    const signer: Signer
    const passwordMatches: (string, string) -> bool

    var sessions: seq<Sessions.Session>
    var nextSessionId: nat
    var resetTokens: seq<ResetTokens.PasswordResetToken>
    var nextResetTokenId: nat

    /** The tables this service owns: increasing ids, one active reset
        token per user. */
    ghost predicate TablesValid()
      reads this
    {
      && Sessions.IdsIncreasing(sessions) && Sessions.IdsBelow(sessions, nextSessionId)
      && ResetTokens.IdsIncreasing(resetTokens, nextResetTokenId) && ResetTokens.OneActivePerUser(resetTokens)
    }

    /** ... and no user above `MAX_ACTIVE_TOKENS` active sessions. */
    ghost predicate Valid()
      reads this, users, codes
    {
      TablesValid() && Sessions.SessionCap(sessions) && users.Valid() && codes.Valid()
    }

    constructor (users: Users.UsersService, codes: VerificationCodes.VerificationCodeService, config: Config,
                 signer: Signer, passwordMatches: (string, string) -> bool)
      requires users.Valid() && codes.Valid()
      ensures Valid()
      ensures this.users == users && this.codes == codes && this.config == config
      ensures this.signer == signer && this.passwordMatches == passwordMatches
      ensures sessions == [] && resetTokens == []
    {
      this.users := users;
      this.codes := codes;
      this.config := config;
      this.signer := signer;
      this.passwordMatches := passwordMatches;
      sessions := [];
      nextSessionId := 1;
      resetTokens := [];
      nextResetTokenId := 1;
      new;
      assert forall u :: Sessions.NewestFirst([], u) == [];
    }

    /** `deactivateOldTokens`: afterwards the user has room for one more
        session. */
    method DeactivateOldTokens(userId: nat)
      requires Valid()
      modifies this
      ensures Valid()
      ensures sessions == Sessions.DeactivateOldTokens(old(sessions), userId)
      ensures Sessions.ActiveCount(sessions, userId) < Sessions.MaxActiveTokens
      ensures nextSessionId == old(nextSessionId)
      ensures resetTokens == old(resetTokens) && nextResetTokenId == old(nextResetTokenId)
    {
      ghost var before := sessions;
      var activeTokens := Sessions.NewestFirst(sessions, userId);
      if |activeTokens| >= Sessions.MaxActiveTokens {
        var tokensToDeactivate := activeTokens[Sessions.MaxActiveTokens - 1..];
        sessions := Sessions.DeactivateIds(sessions, Sessions.IdsOf(tokensToDeactivate));
      }
      Sessions.DeactivateOldTokensSpec(before, userId);
      Sessions.DeactivationKeepsCap(before, sessions);
      Sessions.DeactivationKeepsIds(before, sessions, nextSessionId);
    }

    /** `saveRefreshToken`: appends an active session that expires 7 days
        from `now`. */
    method SaveRefreshToken(userId: nat, token: string, deviceInfo: string, ip: Option<string>, now: int)
      requires TablesValid()
      modifies this
      ensures TablesValid()
      ensures sessions == old(sessions) + [NewSession(old(nextSessionId), token, userId, deviceInfo, ip, now)]
      ensures nextSessionId == old(nextSessionId) + 1
      ensures resetTokens == old(resetTokens) && nextResetTokenId == old(nextResetTokenId)
    {
      sessions := sessions + [NewSession(nextSessionId, token, userId, deviceInfo, ip, now)];
      nextSessionId := nextSessionId + 1;
    }

    /** `login`: on success the user's oldest sessions are evicted, a new
        session is stored and a fresh token pair is returned. */
    method Login(email: string, password: string, req: Request, now: int) returns (r: Result<TokenPair>)
      requires Valid()
      modifies this
      ensures Valid()
      ensures resetTokens == old(resetTokens) && nextResetTokenId == old(nextResetTokenId)
      ensures Authenticate(users.users, email, password, passwordMatches).Err? ==>
                && r == Err(Authenticate(users.users, email, password, passwordMatches).error)
                && sessions == old(sessions) && nextSessionId == old(nextSessionId)
      ensures Authenticate(users.users, email, password, passwordMatches).Ok? ==>
                var user := Authenticate(users.users, email, password, passwordMatches).value;
                && r == Ok(CreateTokens(config, signer, ClaimsOf(user), now))
                && sessions == Sessions.DeactivateOldTokens(old(sessions), user.id)
                                + [NewSession(old(nextSessionId), r.value.refreshToken, user.id, DeviceInfo(req), req.ip, now)]
    {
      var found := users.FindOneByEmailWithPassword(email);
      if found.Err? {
        return Err(found.error);
      }
      var user := found.value;
      if user.password.None? {
        return Err(Internal);
      }
      if !passwordMatches(password, user.password.value) {
        return Err(Raise(Unauthorized, WrongPassword));
      }
      if !user.is_active {
        return Err(Raise(Unauthorized, BlockedUser));
      }
      if !user.is_verified {
        return Err(Raise(Unauthorized, UserNotVerified));
      }
      var tokens := CreateTokens(config, signer, ClaimsOf(user), now);
      ghost var before := sessions;
      DeactivateOldTokens(user.id);
      SaveRefreshToken(user.id, tokens.refreshToken, DeviceInfo(req), req.ip, now);
      Sessions.EvictThenAddKeepsCap(before, user.id, sessions[|sessions| - 1]);
      r := Ok(tokens);
    }

    /** `refreshToken`: every failure is reported as `InvalidRefreshToken`; a
        session presented from another device or address is deactivated; a
        good one is replaced by a new session of the same user. */
    method RefreshToken(refreshToken: string, req: Request, now: int) returns (r: Result<TokenPair>)
      requires Valid()
      modifies this
      ensures Valid()
      ensures resetTokens == old(resetTokens) && nextResetTokenId == old(nextResetTokenId)
      ensures r.Err? ==> r.error == Raise(Unauthorized, InvalidRefreshToken)
      ensures VerifyRefreshToken(config, signer, refreshToken, now).Err? || Sessions.FindActiveByToken(old(sessions), refreshToken).None? ==>
                r.Err? && sessions == old(sessions)
      ensures VerifyRefreshToken(config, signer, refreshToken, now).Ok? && Sessions.FindActiveByToken(old(sessions), refreshToken).Some? ==>
                var payload := VerifyRefreshToken(config, signer, refreshToken, now).value;
                var k := Sessions.FindActiveByToken(old(sessions), refreshToken).value;
                var stored := old(sessions)[k];
                var revoked := old(sessions)[k := Sessions.Deactivated(stored)];
                if !SameClient(stored, DeviceInfo(req), RefreshIp(req)) then
                  r.Err? && sessions == revoked
                else
                  && r == Ok(CreateTokens(config, signer, payload, now))
                  && sessions == revoked + [NewSession(old(nextSessionId), r.value.refreshToken, stored.user_id,
                                                      DeviceInfo(req), RefreshIp(req), now)]
    {
      var invalid := Raise(Unauthorized, InvalidRefreshToken);
      var verified := VerifyRefreshToken(config, signer, refreshToken, now);
      if verified.Err? {
        return Err(invalid);
      }
      var payload := verified.value;
      var k := Sessions.FindActiveByToken(sessions, refreshToken);
      if k.None? {
        return Err(invalid);
      }
      var storedToken := sessions[k.value];
      var deviceInfo := DeviceInfo(req);
      var ipAddress := RefreshIp(req);
      ghost var before := sessions;
      Sessions.DeactivateIdsSingle(sessions, k.value);
      Sessions.ReplaceKeepsCap(sessions, k.value, NewSession(nextSessionId, CreateTokens(config, signer, payload, now).refreshToken,
                                                             storedToken.user_id, deviceInfo, ipAddress, now));
      Sessions.DeactivationKeepsCap(sessions, sessions[k.value := Sessions.Deactivated(storedToken)]);
      Sessions.DeactivationKeepsIds(sessions, sessions[k.value := Sessions.Deactivated(storedToken)], nextSessionId);
      if !SameClient(storedToken, deviceInfo, ipAddress) {
        sessions := Sessions.DeactivateIds(sessions, {storedToken.id});
        return Err(invalid);
      }
      var tokens := CreateTokens(config, signer, payload, now);
      sessions := Sessions.DeactivateIds(sessions, {storedToken.id});
      SaveRefreshToken(storedToken.user_id, tokens.refreshToken, deviceInfo, ipAddress, now);
      r := Ok(tokens);
    }

    /** `logout`: deactivates every session holding the token. */
    method Logout(refreshToken: string)
      requires Valid()
      modifies this
      ensures Valid()
      ensures sessions == Sessions.DeactivateToken(old(sessions), refreshToken)
      ensures Sessions.FindActiveByToken(sessions, refreshToken).None?
      ensures nextSessionId == old(nextSessionId)
      ensures resetTokens == old(resetTokens) && nextResetTokenId == old(nextResetTokenId)
    {
      ghost var before := sessions;
      sessions := Sessions.DeactivateToken(sessions, refreshToken);
      Sessions.DeactivationKeepsCap(before, sessions);
      Sessions.DeactivationKeepsIds(before, sessions, nextSessionId);
      Sessions.DeactivateTokenFindsNothing(before, refreshToken);
    }

    /** `register`: refuses a taken email; otherwise creates an unverified
        user with the hashed password, stores a verification code for the
        email and returns the email and the verification flag. */
    method Register(email: string, first_name: string, last_name: string, hashed: string, code: string, now: int)
      returns (r: Result<Users.UserSummary>)
      requires Valid()
      modifies users, codes
      ensures Valid()
      ensures Users.FindByEmail(old(users.users), email).Some? ==>
                && r == Err(Raise(BadRequest, UserAlreadyExists))
                && users.users == old(users.users) && users.nextId == old(users.nextId)
                && codes.codes == old(codes.codes) && codes.nextId == old(codes.nextId)
      ensures Users.FindByEmail(old(users.users), email).None? ==>
                && r == Ok(Users.UserSummary(email, false))
                && users.users == old(users.users) + [Users.User(old(users.nextId), first_name, Some(last_name), email, true, false,
                                                                 if hashed != "" then Some(hashed) else None)]
                && codes.codes == old(codes.codes) + [VerificationCodes.VerificationCode(old(codes.nextId), email, code, true,
                                                                                         VerificationCodes.Email,
                                                                                         now + VerificationCodes.ExpiryMs)]
    {
      var existingUser := users.FindOneByEmail(email);
      if existingUser.Some? {
        return Err(Raise(BadRequest, UserAlreadyExists));
      }
      var created := users.Create(first_name, Some(last_name), email, Some(hashed), Some(false));
      var id := created.value.id;
      assert Users.FindById(users.users, id) == Some(|users.users| - 1) by {
        var last := |users.users| - 1;
        assert users.users[last].id == id;
        var v := Users.FindById(users.users, id).value;
        assert v == last;
      }
      var newUser := users.FindOne(id);
      var _ := codes.CreateVerificationCode(email, VerificationCodes.Email, code, now);
      r := Ok(Users.UserSummary(newUser.value.email, newUser.value.is_verified));
    }

    /** `requestPasswordReset`: an unknown email is silently ignored;
        otherwise the user's earlier tokens are deactivated and a new one,
        valid one hour, is stored. */
    method RequestPasswordReset(email: string, token: string, now: int)
      requires Valid()
      modifies this
      ensures Valid()
      ensures sessions == old(sessions) && nextSessionId == old(nextSessionId)
      ensures Users.FindByEmail(users.users, email).None? ==>
                resetTokens == old(resetTokens) && nextResetTokenId == old(nextResetTokenId)
      ensures Users.FindByEmail(users.users, email).Some? ==>
                var user := users.users[Users.FindByEmail(users.users, email).value];
                && resetTokens == ResetTokens.Issue(old(resetTokens), old(nextResetTokenId), token, user.id, now)
                && nextResetTokenId == old(nextResetTokenId) + 1
    {
      var user := users.FindOneByEmail(email);
      if user.None? {
        return;
      }
      ResetTokens.IssueKeepsOneActive(resetTokens, nextResetTokenId, token, user.value.id, now);
      resetTokens := ResetTokens.Issue(resetTokens, nextResetTokenId, token, user.value.id, now);
      nextResetTokenId := nextResetTokenId + 1;
    }

    /** `resetPassword`: an unknown, used or expired token is refused; if the
        password update fails the token stays usable; otherwise the password
        is replaced and the token deactivated. */
    method ResetPassword(token: string, hashed: string, now: int) returns (r: Result<()>)
      requires Valid()
      modifies this, users
      ensures Valid()
      ensures sessions == old(sessions) && nextSessionId == old(nextSessionId) && users.nextId == old(users.nextId)
      ensures ResetTokens.FindActiveToken(old(resetTokens), token).None? ==>
                r == Err(Raise(Unauthorized, InvalidResetToken)) && resetTokens == old(resetTokens) && users.users == old(users.users)
      ensures ResetTokens.FindActiveToken(old(resetTokens), token).Some? ==>
                var row := old(resetTokens)[ResetTokens.FindActiveToken(old(resetTokens), token).value];
                var target := Users.FindById(old(users.users), row.user_id);
                if ResetTokens.Expired(row, now) then
                  r == Err(Raise(Unauthorized, InvalidResetToken)) && resetTokens == old(resetTokens) && users.users == old(users.users)
                else if target.None? then
                  r == Err(Raise(NotFound, UserNotFound)) && resetTokens == old(resetTokens) && users.users == old(users.users)
                else if old(users.users)[target.value].password.None? then
                  r == Err(Internal) && resetTokens == old(resetTokens) && users.users == old(users.users)
                else
                  && r == Ok(())
                  && users.users == old(users.users)[target.value := old(users.users)[target.value].(password := Some(hashed))]
                  && resetTokens == ResetTokens.DeactivateTokenId(old(resetTokens), row.id)
    {
      var k := ResetTokens.FindActiveToken(resetTokens, token);
      if k.None? || ResetTokens.Expired(resetTokens[k.value], now) {
        return Err(Raise(Unauthorized, InvalidResetToken));
      }
      var resetToken := resetTokens[k.value];
      var updated := users.UpdatePassword(resetToken.user_id, hashed);
      if updated.Err? {
        return Err(updated.error);
      }
      ResetTokens.DeactivateTokenIdKeepsInvariants(resetTokens, nextResetTokenId, resetToken.id);
      resetTokens := ResetTokens.DeactivateTokenId(resetTokens, resetToken.id);
      r := Ok(());
    }

    /** `resendVerificationCode`: only for a known, unverified user. */
    method ResendVerificationCode(email: string, code: string, now: int) returns (r: Result<()>)
      requires Valid()
      modifies codes
      ensures Valid()
      ensures Users.FindByEmail(users.users, email).None? ==>
                r == Err(Raise(NotFound, UserNotFound)) && codes.codes == old(codes.codes) && codes.nextId == old(codes.nextId)
      ensures Users.FindByEmail(users.users, email).Some? ==>
                if users.users[Users.FindByEmail(users.users, email).value].is_verified then
                  r == Err(Raise(BadRequest, UserAlreadyExists)) && codes.codes == old(codes.codes) && codes.nextId == old(codes.nextId)
                else
                  && r == Ok(())
                  && codes.codes == old(codes.codes) + [VerificationCodes.VerificationCode(old(codes.nextId), email, code, true,
                                                                                           VerificationCodes.Email,
                                                                                           now + VerificationCodes.ExpiryMs)]
    {
      var user := users.FindOneByEmail(email);
      if user.None? {
        return Err(Raise(NotFound, UserNotFound));
      }
      if user.value.is_verified {
        return Err(Raise(BadRequest, UserAlreadyExists));
      }
      var _ := codes.CreateVerificationCode(email, VerificationCodes.Email, code, now);
      r := Ok(());
    }

    /** Rolls the runner back and restores the user and code tables from its
        snapshot. */
    method Abandon(runner: TransactionRunner<(seq<Users.User>, seq<VerificationCodes.VerificationCode>)>)
      requires runner.Valid() && runner.isTransactionActive && !runner.hasTransactionDestroyed
      requires runner.snapshot.value.0 == users.users && runner.snapshot.value.1 == codes.codes
      modifies runner
      ensures runner.Valid() && runner.hasTransactionDestroyed && !runner.isTransactionActive
    {
      var _, _ := runner.RollbackTransaction();
      runner.ReleaseTransaction();
    }

    /** `verifyEmail`: inside a transaction, checks the user and the code,
        marks the user verified, then evicts old sessions and stores a new
        one. `saveFails` is a storage failure while saving the new session:
        the transaction is rolled back, which restores the user and code
        tables, but the eviction went through the plain repository and
        stays. */
    method VerifyEmail(email: string, code: string, req: Request, now: int, saveFails: bool) returns (r: Result<TokenPair>)
      requires Valid()
      modifies this, users, codes
      ensures Valid()
      ensures resetTokens == old(resetTokens) && nextResetTokenId == old(nextResetTokenId)
      ensures users.nextId == old(users.nextId) && codes.nextId == old(codes.nextId)
      ensures VerificationTarget(old(users.users), old(codes.codes), email, code, now).Err? ==>
                && r == Err(VerificationTarget(old(users.users), old(codes.codes), email, code, now).error)
                && users.users == old(users.users) && codes.codes == old(codes.codes) && sessions == old(sessions)
      ensures VerificationTarget(old(users.users), old(codes.codes), email, code, now).Ok? && saveFails ==>
                var user := VerificationTarget(old(users.users), old(codes.codes), email, code, now).value.0;
                && r == Err(Internal)
                && users.users == old(users.users) && codes.codes == old(codes.codes)
                && sessions == Sessions.DeactivateOldTokens(old(sessions), user.id)
      ensures VerificationTarget(old(users.users), old(codes.codes), email, code, now).Ok? && !saveFails ==>
                var (user, used) := VerificationTarget(old(users.users), old(codes.codes), email, code, now).value;
                && r == Ok(CreateTokens(config, signer, ClaimsOf(user), now))
                && users.users == Users.MarkVerified(old(users.users), user.id)
                && codes.codes == VerificationCodes.DeactivateCode(old(codes.codes), used.id, VerificationCodes.Email)
                && sessions == Sessions.DeactivateOldTokens(old(sessions), user.id)
                               + [NewSession(old(nextSessionId), r.value.refreshToken, user.id, DeviceInfo(req), req.ip, now)]
    {
      var runner := new TransactionRunner<(seq<Users.User>, seq<VerificationCodes.VerificationCode>)>();
      runner.StartTransaction((users.users, codes.codes), DefaultIsolationLevel);
      var user := users.FindOneByEmail(email);
      if user.None? {
        Abandon(runner);
        return Err(Raise(NotFound, UserNotFound));
      }
      if user.value.is_verified {
        Abandon(runner);
        return Err(Raise(BadRequest, UserAlreadyExists));
      }
      var verified := codes.VerifyCode(email, code, VerificationCodes.Email, now);
      if verified.Err? {
        Abandon(runner);
        return Err(verified.error);
      }
      Users.MarkVerifiedKeepsIds(users.users, users.nextId, user.value.id);
      users.users := Users.MarkVerified(users.users, user.value.id);
      assert Valid();
      r := SignInVerified(user.value, req, now, saveFails, runner);
    }

    /** The rest of `verifyEmail` once the code is consumed and the user
        marked verified inside the transaction. */
    method SignInVerified(user: Users.User, req: Request, now: int, saveFails: bool,
                          runner: TransactionRunner<(seq<Users.User>, seq<VerificationCodes.VerificationCode>)>)
      returns (r: Result<TokenPair>)
      requires Valid()
      requires runner.Valid() && runner.isTransactionActive && !runner.hasTransactionDestroyed
      requires Users.IdsIncreasing(runner.snapshot.value.0, users.nextId)
      requires VerificationCodes.IdsIncreasing(runner.snapshot.value.1, codes.nextId)
      modifies this, users, codes, runner
      ensures Valid()
      ensures resetTokens == old(resetTokens) && nextResetTokenId == old(nextResetTokenId)
      ensures users.nextId == old(users.nextId) && codes.nextId == old(codes.nextId)
      ensures saveFails ==>
                && r == Err(Internal)
                && users.users == old(runner.snapshot.value.0) && codes.codes == old(runner.snapshot.value.1)
                && sessions == Sessions.DeactivateOldTokens(old(sessions), user.id)
      ensures !saveFails ==>
                && r == Ok(CreateTokens(config, signer, ClaimsOf(user), now))
                && users.users == old(users.users) && codes.codes == old(codes.codes)
                && sessions == Sessions.DeactivateOldTokens(old(sessions), user.id)
                               + [NewSession(old(nextSessionId), r.value.refreshToken, user.id, DeviceInfo(req), req.ip, now)]
    {
      var tokens := CreateTokens(config, signer, ClaimsOf(user), now);
      ghost var before := sessions;
      DeactivateOldTokens(user.id);
      if saveFails {
        var _, restore := runner.RollbackTransaction();
        users.users := restore.value.0;
        codes.codes := restore.value.1;
        runner.ReleaseTransaction();
        return Err(Internal);
      }
      SaveRefreshToken(user.id, tokens.refreshToken, DeviceInfo(req), req.ip, now);
      Sessions.EvictThenAddKeepsCap(before, user.id, sessions[|sessions| - 1]);
      var _ := runner.CommitTransaction();
      runner.ReleaseTransaction();
      r := Ok(tokens);
    }
  }

}

=== FILE: common.dfy ===
/** Values shared by every component: optional values, results, and the
    typed HTTP failures the services raise (NestJS exceptions carrying an
    error-code string). */
module Common {

  datatype Option<+T> = None | Some(value: T)

  datatype Result<+T> = Ok(value: T) | Err(error: Failure)

  /** The HTTP exception class a service throws. */
  datatype Status = BadRequest | Unauthorized | NotFound | Conflict | InternalServerError

  /** An exception as the caller sees it: its class and its message. */
  datatype Failure = Failure(status: Status, message: string)

  /** The application's error codes (src/common/enums/error-code.enum.ts). */
  datatype ErrorCode =
    | WrongPassword
    | BlockedUser
    | UserWithEmailNotFound
    | UserAlreadyExists
    | UserNotFound
    | InvalidRefreshToken
    | InvalidResetToken
    | InvalidToken
    | VerificationCodeSent
    | InvalidVerificationCode
    | UserNotVerified
    | InvalidPaginationParams
    | MaximumChunkSizeExceeded
    | InvalidSortParams
    | InvalidFilterParams
    | FilterFieldNotAllowed

  /** The string value of each error code. */
  function Text(code: ErrorCode): string
  {
    match code
    case WrongPassword => "wrong-password"
    case BlockedUser => "blocked-user"
    case UserWithEmailNotFound => "user-with-email-not-found"
    case UserAlreadyExists => "user-already-exists"
    case UserNotFound => "user-not-found"
    case InvalidRefreshToken => "invalid-refresh-token"
    case InvalidResetToken => "invalid-reset-token"
    case InvalidToken => "invalid-token"
    case VerificationCodeSent => "verification-code-sent"
    case InvalidVerificationCode => "invalid-verification-code"
    case UserNotVerified => "user-not-verified"
    case InvalidPaginationParams => "invalid-pagination-params"
    case MaximumChunkSizeExceeded => "maximum-chunk-size-250-exceeded"
    case InvalidSortParams => "invalid-sort-params"
    case InvalidFilterParams => "invalid-filter-params"
    case FilterFieldNotAllowed => "filter-field-not-allowed"
  }

  /** An exception constructed with an error code as its only argument. */
  function Raise(status: Status, code: ErrorCode): Failure
  {
    Failure(status, Text(code))
  }

  /** An exception constructed as `${code}:${detail}`. */
  function RaiseWith(status: Status, code: ErrorCode, detail: string): Failure
  {
    Failure(status, Text(code) + ":" + detail)
  }

  /** NestJS's own message for an UnauthorizedException built with no argument. */
  const UnauthorizedDefault: Failure := Failure(Unauthorized, "Unauthorized")

  /** NestJS's own message for a NotFoundException built with no argument. */
  const NotFoundDefault: Failure := Failure(NotFound, "Not Found")

  /** What NestJS answers when a non-HTTP exception (a TypeError, a storage
      error) escapes a handler. */
  const Internal: Failure := Failure(InternalServerError, "Internal server error")
}

=== FILE: filtering.dfy ===
/** The `FilteringParams` request decorator and its `getWhere` helper
    (src/common/decorators/filtering-params.decorator.ts). Each
    `filters=<fieldPath>:<rule>:<value>` query entry becomes a TypeORM
    where-clause stored under its (possibly dotted) field path. */
module Filtering {
  import opened Common
  import opened Text

  /** The TypeORM find operators the decorator builds, plus the two plain
      values it can return: the raw string (for `eq`) and the empty object. */
  datatype Where =
    | EmptyObject
    | Value(s: string)
    | IsNull
    | Not(inner: Where)
    | MoreThan(s: string)
    | MoreThanOrEqual(s: string)
    | LessThan(s: string)
    | LessThanOrEqual(s: string)
    | ILike(pattern: string)
    | In(values: seq<string>)
    | Between(from: string, to: string)

  /** The filter result: a record whose entries are clauses or nested records. */
  datatype Node = Clause(where: Where) | Record(fields: map<string, Node>)

  /** A raw `filters` query value as Express parses it: one string, an array,
      or a nested object (`filters[a]=b`). */
  datatype QueryValue = QString(s: string) | QArray(items: seq<QueryValue>) | QObject

  /** The string values of the `FilterRule` enum. */
  predicate IsFilterRule(rule: string)
  {
    rule in {"eq", "neq", "gt", "gte", "lt", "lte", "like", "nlike", "in", "nin", "isnull", "isnotnull", "between"}
  }

  /** `value.split(',').filter((v) => v.trim() !== '')`: the non-blank items,
      in order and untrimmed. */
  function NonBlankItems(items: seq<string>): (r: seq<string>)
    ensures |r| <= |items|
    ensures forall k | 0 <= k < |r| :: !IsBlank(r[k]) && r[k] in items
    ensures r == [] <==> forall k | 0 <= k < |items| :: IsBlank(items[k])
  {
    if items == [] then []
    else
      var rest := NonBlankItems(items[1..]);
      assert forall k | 1 <= k < |items| :: items[k] == items[1..][k - 1];
      if IsBlank(items[0]) then rest else [items[0]] + rest
  }

  /** Every non-blank item is kept as often as it occurs, and no blank one. */
  lemma {:induction false} NonBlankItemsCount(items: seq<string>, x: string)
    ensures multiset(NonBlankItems(items))[x] == if IsBlank(x) then 0 else multiset(items)[x]
    decreases |items|
  {
    if items != [] {
      NonBlankItemsCount(items[1..], x);
      assert items == [items[0]] + items[1..];
    }
  }

  /** Filtering keeps order: an item added at the end lands at the end of the
      result exactly when it is not blank. */
  lemma {:induction false} NonBlankItemsAppend(items: seq<string>, x: string)
    ensures NonBlankItems(items + [x]) == NonBlankItems(items) + (if IsBlank(x) then [] else [x])
    decreases |items|
  {
    if items == [] {
      assert [] + [x] == [x];
      assert [x][1..] == [];
    } else {
      assert (items + [x])[1..] == items[1..] + [x];
      NonBlankItemsAppend(items[1..], x);
    }
  }

  /** `getWhere`: the where-clause for one rule and value. */
  function GetWhere(rule: string, value: string): (w: Where)
    // equality filters with nothing to compare against impose nothing
    ensures (rule == "eq" || rule == "neq") && IsBlank(value) ==> w == EmptyObject
    ensures rule == "eq" && !IsBlank(value) ==> w == Value(value)
    ensures rule == "neq" && !IsBlank(value) ==> w == Not(Value(value))
    // the comparisons pass the value through unchanged
    ensures rule == "gt" ==> w == MoreThan(value)
    ensures rule == "gte" ==> w == MoreThanOrEqual(value)
    ensures rule == "lt" ==> w == LessThan(value)
    ensures rule == "lte" ==> w == LessThanOrEqual(value)
    // pattern filters match the value anywhere, case-insensitively
    ensures rule == "like" ==> w == ILike("%" + value + "%")
    ensures rule == "nlike" ==> w == Not(ILike("%" + value + "%"))
    // the null tests ignore the value
    ensures rule == "isnull" ==> w == IsNull
    ensures rule == "isnotnull" ==> w == Not(IsNull)
    ensures !IsFilterRule(rule) ==> w == EmptyObject
  {
    if rule == "isnull" then IsNull
    else if rule == "isnotnull" then Not(IsNull)
    else if rule == "eq" then (if IsBlank(value) then EmptyObject else Value(value))
    else if rule == "neq" then (if IsBlank(value) then EmptyObject else Not(Value(value)))
    else if rule == "gt" then MoreThan(value)
    else if rule == "gte" then MoreThanOrEqual(value)
    else if rule == "lt" then LessThan(value)
    else if rule == "lte" then LessThanOrEqual(value)
    else if rule == "like" then ILike("%" + value + "%")
    else if rule == "nlike" then Not(ILike("%" + value + "%"))
    else if rule == "in" then
      var values := NonBlankItems(Split(value, ','));
      if |values| > 0 then In(values) else EmptyObject
    else if rule == "nin" then
      var values := NonBlankItems(Split(value, ','));
      if |values| > 0 then Not(In(values)) else EmptyObject
    else if rule == "between" then
      var parts := Split(value, ',');
      if |parts| < 2 || parts[0] == "" || parts[1] == "" then EmptyObject
      else Between(parts[0], parts[1])
    else EmptyObject
  }

  /** List filters keep exactly the non-blank comma-separated items, and
      impose nothing when none is left. */
  lemma ListWhere(rule: string, value: string)
    requires rule == "in" || rule == "nin"
    ensures GetWhere(rule, value) == EmptyObject <==> forall item | item in Split(value, ',') :: IsBlank(item)
    // the list is the value's non-blank comma items, in order
    ensures rule == "in" && GetWhere(rule, value) != EmptyObject ==> GetWhere(rule, value) == In(NonBlankItems(Split(value, ',')))
    ensures rule == "nin" && GetWhere(rule, value) != EmptyObject ==> GetWhere(rule, value) == Not(In(NonBlankItems(Split(value, ','))))
    ensures var w := GetWhere(rule, value);
            rule == "in" && w != EmptyObject ==>
              w.In? && |w.values| > 0 && forall k | 0 <= k < |w.values| :: !IsBlank(w.values[k]) && ',' !in w.values[k]
    ensures var w := GetWhere(rule, value);
            rule == "nin" && w != EmptyObject ==>
              w.Not? && w.inner.In? && forall k | 0 <= k < |w.inner.values| :: !IsBlank(w.inner.values[k])
  {
    var items := Split(value, ',');
    var values := NonBlankItems(items);
    assert GetWhere(rule, value) ==
           if values == [] then EmptyObject else if rule == "in" then In(values) else Not(In(values));
    assert (GetWhere(rule, value) == EmptyObject) == (values == []);
    assert values == [] <==> forall k | 0 <= k < |items| :: IsBlank(items[k]);
    assert forall k | 0 <= k < |values| :: values[k] in items;
    assert GetWhere(rule, value) == EmptyObject <==> forall k | 0 <= k < |items| :: IsBlank(items[k]);
  }

  /** A range needs both of its first two comma parts, and they are how the
      value begins. */
  lemma BetweenWhere(value: string)
    ensures var w := GetWhere("between", value);
            && (w != EmptyObject <==> |Split(value, ',')| >= 2 && Split(value, ',')[0] != "" && Split(value, ',')[1] != "")
            && (w != EmptyObject ==>
                  w.Between? && (value == w.from + "," + w.to || exists rest :: value == w.from + "," + w.to + "," + rest))
            // the bounds are the first two comma parts themselves
            && (w != EmptyObject ==> w == Between(Split(value, ',')[0], Split(value, ',')[1]))
  {
    if |Split(value, ',')| >= 2 {
      BetweenParts(value);
    }
  }

  /** The first two comma parts of a value are how it begins. */
  lemma BetweenParts(value: string)
    requires |Split(value, ',')| >= 2
    ensures var parts := Split(value, ',');
            value == parts[0] + "," + parts[1] || exists rest :: value == parts[0] + "," + parts[1] + "," + rest
  {
    var parts := Split(value, ',');
    JoinSplit(value, ',');
    assert Join(parts, ',') == parts[0] + [','] + Join(parts[1..], ',');
    if |parts| == 2 {
      assert Join(parts[1..], ',') == parts[1];
    } else {
      assert Join(parts[1..], ',') == parts[1] + [','] + Join(parts[2..], ',');
      assert value == parts[0] + "," + parts[1] + "," + Join(parts[2..], ',');
    }
  }

  /** The first three ':'-separated parts of one filter string. */
  datatype FilterParts = FilterParts(fieldPath: string, rule: string, value: string)

  /** `const [fieldPath, rule, value] = filter.split(':')` and the check that
      the path and the rule are non-empty and a value is present. */
  function ParseFilter(filter: string): (r: Option<FilterParts>)
    ensures r.Some? ==> r.value.fieldPath != "" && r.value.rule != ""
    ensures r.Some? ==> ':' !in r.value.fieldPath && ':' !in r.value.rule && ':' !in r.value.value
    // refused exactly when there are fewer than three parts or the path or
    // the rule is empty
    ensures var parts := Split(filter, ':');
            r.None? <==> |parts| < 3 || parts[0] == "" || parts[1] == ""
    ensures r.Some? ==> Split(filter, ':')[..3] == [r.value.fieldPath, r.value.rule, r.value.value]
  {
    var parts := Split(filter, ':');
    if parts[0] == "" || |parts| < 2 || parts[1] == "" || |parts| < 3 then None
    else Some(FilterParts(parts[0], parts[1], parts[2]))
  }

  /** Splitting after a path and a rule without ':' yields those two first. */
  lemma SplitPathAndRule(fieldPath: string, rule: string, tail: string)
    requires ':' !in fieldPath && ':' !in rule
    ensures Split(fieldPath + [':'] + (rule + [':'] + tail), ':') == [fieldPath, rule] + Split(tail, ':')
  {
    SplitAfterPrefix(fieldPath, rule + [':'] + tail, ':');
    SplitAfterPrefix(rule, tail, ':');
  }

  /** A filter written as path, rule and value is read back as exactly those
      three; anything after a third ':' is ignored. */
  lemma ParseFilterRoundTrip(fieldPath: string, rule: string, value: string, rest: string)
    requires fieldPath != "" && rule != ""
    requires ':' !in fieldPath && ':' !in rule && ':' !in value
    ensures ParseFilter(fieldPath + ":" + rule + ":" + value) == Some(FilterParts(fieldPath, rule, value))
    ensures ParseFilter(fieldPath + ":" + rule + ":" + value + ":" + rest) == Some(FilterParts(fieldPath, rule, value))
  {
    var short := fieldPath + ":" + rule + ":" + value;
    assert short == fieldPath + [':'] + (rule + [':'] + value);
    SplitPathAndRule(fieldPath, rule, value);
    assert Split(short, ':') == [fieldPath, rule, value];
    var long := fieldPath + ":" + rule + ":" + value + ":" + rest;
    var tail := value + [':'] + rest;
    assert long == fieldPath + [':'] + (rule + [':'] + tail);
    SplitPathAndRule(fieldPath, rule, tail);
    SplitAfterPrefix(value, rest, ':');
    assert Split(long, ':')[..3] == [fieldPath, rule, value];
  }

  /** Walks `prefix` down from `m`, replacing every missing or non-record
      entry on the way by an empty record, and when `leaf` is given stores it
      under `field` in the innermost record. */
  function Place(m: map<string, Node>, prefix: seq<string>, field: string, leaf: Option<Node>): (r: map<string, Node>)
    ensures prefix != [] ==> r.Keys == m.Keys + {prefix[0]}
    ensures prefix == [] ==> r.Keys == if leaf.Some? then m.Keys + {field} else m.Keys
    decreases |prefix|
  {
    if prefix == [] then
      (if leaf.Some? then m[field := leaf.value] else m)
    else
      var part := prefix[0];
      var sub := if part in m && m[part].Record? then m[part].fields else map[];
      m[part := Record(Place(sub, prefix[1..], field, leaf))]
  }

  /** The node stored under a dotted path, if any. */
  function Lookup(m: map<string, Node>, path: seq<string>): Option<Node>
    requires |path| >= 1
    decreases |path|
  {
    if path[0] !in m then None
    else if |path| == 1 then Some(m[path[0]])
    else if m[path[0]].Record? then Lookup(m[path[0]].fields, path[1..])
    else None
  }

  /** A stored clause is found under its full path, whatever was there
      before: a later filter on the same path overwrites an earlier one. */
  lemma {:induction false} PlaceThenLookup(m: map<string, Node>, prefix: seq<string>, field: string, node: Node)
    ensures Lookup(Place(m, prefix, field, Some(node)), prefix + [field]) == Some(node)
    decreases |prefix|
  {
    if prefix != [] {
      var part := prefix[0];
      var sub := if part in m && m[part].Record? then m[part].fields else map[];
      PlaceThenLookup(sub, prefix[1..], field, node);
      assert (prefix + [field])[1..] == prefix[1..] + [field];
    }
  }

  /** Storing under one top-level key leaves every other top-level entry as it was. */
  lemma PlaceKeepsOthers(m: map<string, Node>, prefix: seq<string>, field: string, leaf: Option<Node>, k: string)
    requires k in m && k != (prefix + [field])[0]
    ensures k in Place(m, prefix, field, leaf) && Place(m, prefix, field, leaf)[k] == m[k]
  {
  }

  /** Walking a path without storing anything keeps what its full path
      finds: a skipped filter leaves an earlier clause on the same path. */
  lemma {:induction false} PlaceNoLeafKeepsPath(m: map<string, Node>, prefix: seq<string>, field: string)
    ensures Lookup(Place(m, prefix, field, None), prefix + [field]) == Lookup(m, prefix + [field])
    decreases |prefix|
  {
    if prefix != [] {
      var part := prefix[0];
      var sub := if part in m && m[part].Record? then m[part].fields else map[];
      PlaceNoLeafKeepsPath(sub, prefix[1..], field);
      assert (prefix + [field])[1..] == prefix[1..] + [field];
    }
  }

  /** Storing under a dotted path changes no other path: a path that leaves
      it at position `i` finds what it found before. In particular the other
      entries of every record on the way are kept, so `a.b` and then `a.c`
      leave both under `a`. */
  lemma {:induction false} PlaceLookupElsewhere(m: map<string, Node>, prefix: seq<string>, field: string,
                                                leaf: Option<Node>, q: seq<string>, i: nat)
    requires i < |q| && i <= |prefix|
    requires q[..i] == (prefix + [field])[..i] && q[i] != (prefix + [field])[i]
    ensures Lookup(Place(m, prefix, field, leaf), q) == Lookup(m, q)
    decreases |prefix|
  {
    var full := prefix + [field];
    if i > 0 {
      assert q[0] == q[..i][0] == full[..i][0] == prefix[0];
      var part := prefix[0];
      var sub := if part in m && m[part].Record? then m[part].fields else map[];
      assert q[1..][..i - 1] == q[..i][1..];
      assert (prefix[1..] + [field])[..i - 1] == full[..i][1..];
      assert (prefix[1..] + [field])[i - 1] == full[i];
      PlaceLookupElsewhere(sub, prefix[1..], field, leaf, q[1..], i - 1);
    }
  }

  /** The rules whose empty value makes the filter a no-op. */
  predicate IsEmptyValueRule(rule: string)
  {
    rule == "eq" || rule == "neq" || rule == "in" || rule == "nin"
  }

  /** One iteration of the parse loop: validates one filter string and adds
      its clause to the accumulated filters. */
  function Step(filters: map<string, Node>, filter: string, allowed: seq<string>): (r: Result<map<string, Node>>)
    ensures r.Ok? ==> ParseFilter(filter).Some? && ParseFilter(filter).value.fieldPath in allowed
  {
    match ParseFilter(filter)
    case None => Err(Raise(BadRequest, InvalidFilterParams))
    case Some(p) =>
      var segments := Split(p.fieldPath, '.');
      var prefix, field := segments[..|segments| - 1], segments[|segments| - 1];
      if field == "" then Err(Raise(BadRequest, InvalidFilterParams))
      else if p.fieldPath !in allowed then Err(RaiseWith(BadRequest, FilterFieldNotAllowed, field))
      else if !IsFilterRule(p.rule) then Err(RaiseWith(BadRequest, InvalidFilterParams, p.rule))
      else if IsEmptyValueRule(p.rule) && IsBlank(p.value) then Ok(Place(filters, prefix, field, None))
      else
        var w := GetWhere(p.rule, p.value);
        if w == EmptyObject then Ok(Place(filters, prefix, field, None))
        else Ok(Place(filters, prefix, field, Some(Clause(w))))
  }

  /** The ways one filter is refused: malformed parts, an empty last path
      segment, a path outside the list and an unknown rule, each with its own
      message, checked in that order. */
  lemma StepRejects(filters: map<string, Node>, filter: string, allowed: seq<string>)
    ensures ParseFilter(filter).None? ==> Step(filters, filter, allowed) == Err(Raise(BadRequest, InvalidFilterParams))
    ensures ParseFilter(filter).Some? ==>
              var r := Step(filters, filter, allowed);
              var p := ParseFilter(filter).value;
              var segments := Split(p.fieldPath, '.');
              var field := segments[|segments| - 1];
              && (field == "" ==> r == Err(Raise(BadRequest, InvalidFilterParams)))
              && (field != "" && p.fieldPath !in allowed ==> r == Err(RaiseWith(BadRequest, FilterFieldNotAllowed, field)))
              && (field != "" && p.fieldPath in allowed && !IsFilterRule(p.rule) ==>
                    r == Err(RaiseWith(BadRequest, InvalidFilterParams, p.rule)))
  {
  }

  /** A filter is accepted when its parts parse, its last path segment is
      non-empty, its path is allowed and its rule is known. */
  lemma StepAcceptsValid(filters: map<string, Node>, filter: string, allowed: seq<string>)
    requires ParseFilter(filter).Some?
    requires var p := ParseFilter(filter).value;
             var segments := Split(p.fieldPath, '.');
             segments[|segments| - 1] != "" && p.fieldPath in allowed && IsFilterRule(p.rule)
    ensures Step(filters, filter, allowed).Ok?
  {
  }

  /** An accepted filter whose clause constrains something is found under its
      dotted path; one that imposes nothing only creates the records on its
      path. */
  lemma StepAccepts(filters: map<string, Node>, filter: string, allowed: seq<string>)
    requires Step(filters, filter, allowed).Ok?
    ensures var r := Step(filters, filter, allowed).value;
            var p := ParseFilter(filter).value;
            var segments := Split(p.fieldPath, '.');
            var w := GetWhere(p.rule, p.value);
            && (!(IsEmptyValueRule(p.rule) && IsBlank(p.value)) && w != EmptyObject ==>
                  Lookup(r, segments) == Some(Clause(w)))
            && ((IsEmptyValueRule(p.rule) && IsBlank(p.value)) || w == EmptyObject ==>
                  && r == Place(filters, segments[..|segments| - 1], segments[|segments| - 1], None)
                  // a skipped filter keeps whatever its own path held, and adds
                  // at most the first segment at the top level
                  && Lookup(r, segments) == Lookup(filters, segments)
                  && filters.Keys <= r.Keys <= filters.Keys + {segments[0]})
  {
    var p := ParseFilter(filter).value;
    var segments := Split(p.fieldPath, '.');
    var prefix, field := segments[..|segments| - 1], segments[|segments| - 1];
    var w := GetWhere(p.rule, p.value);
    assert prefix + [field] == segments;
    if !(IsEmptyValueRule(p.rule) && IsBlank(p.value)) && w != EmptyObject {
      PlaceThenLookup(filters, prefix, field, Clause(w));
    } else {
      PlaceNoLeafKeepsPath(filters, prefix, field);
    }
  }

  /** The parse loop as a left fold: the first refused entry fails the whole
      parameter, otherwise each entry's clause is added in order. */
  function Fold(filters: map<string, Node>, entries: seq<QueryValue>, allowed: seq<string>): Result<map<string, Node>>
    decreases |entries|
  {
    if entries == [] then Ok(filters)
    else if !entries[0].QString? then Err(Raise(BadRequest, InvalidFilterParams))
    else
      match Step(filters, entries[0].s, allowed)
      case Err(e) => Err(e)
      case Ok(next) => Fold(next, entries[1..], allowed)
  }

  /** The decorator's answer for a raw `filters` value and the decorator's
      argument (`None` when it is not an array). */
  function Parse(rawFilters: Option<QueryValue>, data: Option<seq<string>>): (r: Result<Option<map<string, Node>>>)
    ensures rawFilters.None? || rawFilters.value.QObject? ==> r == Ok(None)
    ensures (rawFilters.Some? && !rawFilters.value.QObject?) && data.None? ==> r == Err(Raise(BadRequest, InvalidFilterParams))
  {
    match rawFilters
    case None => Ok(None)
    case Some(QObject) => Ok(None)
    case Some(raw) =>
      if data.None? then Err(Raise(BadRequest, InvalidFilterParams))
      else
        var entries := if raw.QArray? then raw.items else [raw];
        match Fold(map[], entries, data.value)
        case Err(e) => Err(e)
        case Ok(filters) => Ok(Some(filters))
  }

  /** The fold from entry `i` on, unfolded by one entry. */
  lemma FoldAt(filters: map<string, Node>, entries: seq<QueryValue>, i: nat, allowed: seq<string>)
    requires i < |entries|
    ensures !entries[i].QString? ==> Fold(filters, entries[i..], allowed) == Err(Raise(BadRequest, InvalidFilterParams))
    ensures entries[i].QString? && Step(filters, entries[i].s, allowed).Err? ==>
              Fold(filters, entries[i..], allowed) == Err(Step(filters, entries[i].s, allowed).error)
    ensures entries[i].QString? && Step(filters, entries[i].s, allowed).Ok? ==>
              Fold(filters, entries[i..], allowed) == Fold(Step(filters, entries[i].s, allowed).value, entries[i + 1..], allowed)
  {
    assert entries[i..][1..] == entries[i + 1..];
  }

  /** `FilteringParams`: the loop over the query entries, building the filter
      record one entry at a time. */
  method FilteringParams(rawFilters: Option<QueryValue>, data: Option<seq<string>>) returns (r: Result<Option<map<string, Node>>>)
    ensures r == Parse(rawFilters, data)
  {
    var entries: seq<QueryValue>;
    match rawFilters {
      case None => return Ok(None);
      case Some(QObject) => return Ok(None);
      case Some(QArray(items)) => entries := items;
      case Some(QString(s)) => entries := [QString(s)];
    }
    if data.None? {
      return Err(Raise(BadRequest, InvalidFilterParams));
    }
    var filters: map<string, Node> := map[];
    for i := 0 to |entries|
      invariant Fold(map[], entries, data.value) == Fold(filters, entries[i..], data.value)
    {
      FoldAt(filters, entries, i, data.value);
      var entry := entries[i];
      if !entry.QString? {
        return Err(Raise(BadRequest, InvalidFilterParams));
      }
      var next := Step(filters, entry.s, data.value);
      if next.Err? {
        return Err(next.error);
      }
      filters := next.value;
    }
    assert entries[|entries|..] == [];
    return Ok(Some(filters));
  }

  /** Every clause in an accepted result sits under an allowed path: an entry
      whose path is not in the list fails the whole parameter. */
  lemma {:induction false} FoldOnlyAllowed(filters: map<string, Node>, entries: seq<QueryValue>, allowed: seq<string>, k: nat)
    requires k < |entries| && Fold(filters, entries, allowed).Ok?
    ensures entries[k].QString? && ParseFilter(entries[k].s).Some? && ParseFilter(entries[k].s).value.fieldPath in allowed
    decreases |entries|
  {
    var next := Step(filters, entries[0].s, allowed);
    if k > 0 {
      FoldOnlyAllowed(next.value, entries[1..], allowed, k - 1);
    }
  }
}

=== FILE: jwt.dfy ===
/** The token codec (src/auth/services/jwt.service.ts). JWT signing and
    verification belong to a library outside this model: they are the two
    functions of a `Signer` value, and `Sound` says what is required of them. */
module Jwt {
  import opened Common

  const MinuteMs: int := 60 * 1000
  const DayMs: int := 24 * 60 * MinuteMs

  /** Process-wide configuration: the two secrets and the operating mode. */
  datatype Config = Config(jwtSecret: string, jwtRefreshSecret: string, development: bool)

  /** The identity claims carried by both kinds of token. */
  datatype Claims = Claims(id: nat, first_name: string, last_name: Option<string>, email: string)

  datatype TokenPair = TokenPair(accessToken: string, refreshToken: string)

  /** `sign(claims, secret, now, expiresIn)` and `verify(token, secret, now)`,
      times in milliseconds. */
  datatype Signer = Signer(
    sign: (Claims, string, int, int) -> string,
    verify: (string, string, int) -> Option<Claims>)

  /** Verification with the signing secret recovers the claims until the
      token expires. */
  ghost predicate Sound(signer: Signer)
  {
    forall claims, secret, issuedAt, expiresIn, now
      | issuedAt <= now < issuedAt + expiresIn
      :: signer.verify(signer.sign(claims, secret, issuedAt, expiresIn), secret, now) == Some(claims)
  }

  /** Refresh tokens live 7 days. */
  const RefreshTokenTtl: int := 7 * DayMs

  /** Access tokens live 7 days in development mode and 15 minutes otherwise. */
  function AccessTokenTtl(config: Config): (ttl: int)
    ensures config.development ==> ttl == RefreshTokenTtl
    ensures !config.development ==> ttl == 15 * MinuteMs && ttl < RefreshTokenTtl
  {
    if config.development then 7 * DayMs else 15 * MinuteMs
  }

  function CreateAccessToken(config: Config, signer: Signer, claims: Claims, now: int): string
  {
    signer.sign(claims, config.jwtSecret, now, AccessTokenTtl(config))
  }

  function CreateRefreshToken(config: Config, signer: Signer, claims: Claims, now: int): string
  {
    signer.sign(claims, config.jwtRefreshSecret, now, RefreshTokenTtl)
  }

  /** `createTokens`: one token of each kind for the same claims. */
  function CreateTokens(config: Config, signer: Signer, claims: Claims, now: int): TokenPair
  {
    TokenPair(CreateAccessToken(config, signer, claims, now), CreateRefreshToken(config, signer, claims, now))
  }

  /** Checks a refresh token with the refresh secret; every library failure
      becomes `InvalidRefreshToken`. */
  function VerifyRefreshToken(config: Config, signer: Signer, token: string, now: int): (r: Result<Claims>)
    ensures r.Err? ==> r.error == Raise(Unauthorized, InvalidRefreshToken)
    ensures r.Ok? <==> signer.verify(token, config.jwtRefreshSecret, now).Some?
  {
    match signer.verify(token, config.jwtRefreshSecret, now)
    case None => Err(Raise(Unauthorized, InvalidRefreshToken))
    case Some(claims) => Ok(claims)
  }

  /** A refresh token issued at `issuedAt` verifies to its claims for 7 days. */
  lemma RefreshTokenRoundTrip(config: Config, signer: Signer, claims: Claims, issuedAt: int, now: int)
    requires Sound(signer)
    requires issuedAt <= now < issuedAt + RefreshTokenTtl
    ensures VerifyRefreshToken(config, signer, CreateRefreshToken(config, signer, claims, issuedAt), now) == Ok(claims)
  {
  }
}

=== FILE: pagination.dfy ===
/** The `PaginationParams` request decorator
    (src/common/decorators/pagination-params.decorator.ts). The query's
    `page` and `size` arrive already passed through `parseInt`: `None` stands
    for `NaN` (a missing or non-numeric parameter). */
module Pagination {
  import opened Common

  /** The largest chunk a client may ask for. */
  const MaxChunkSize: int := 250

  datatype Pagination = Pagination(limit: int, offset: int, page: int)

  /** Validates page and size, then turns them into a row window. */
  function PaginationParams(page: Option<int>, size: Option<int>): (r: Result<Pagination>)
    ensures r.Ok? <==> page.Some? && size.Some? && page.value >= 0 && 0 <= size.value <= MaxChunkSize
    // a missing or negative value is reported before the size bound is looked at
    ensures (page.None? || size.None? || page.value < 0 || size.value < 0) ==>
              r == Err(Raise(BadRequest, InvalidPaginationParams))
    ensures page.Some? && size.Some? && page.value >= 0 && size.value > MaxChunkSize ==>
              r == Err(Raise(BadRequest, MaximumChunkSizeExceeded))
    // the window of page p (counted from 1) ends where p full pages end
    ensures r.Ok? ==> r.value.limit == size.value && r.value.page == page.value
                      && r.value.offset + r.value.limit == page.value * size.value
  {
    if page.None? || page.value < 0 || size.None? || size.value < 0 then
      Err(Raise(BadRequest, InvalidPaginationParams))
    else if size.value > MaxChunkSize then
      Err(Raise(BadRequest, MaximumChunkSizeExceeded))
    else
      var limit := size.value;
      Ok(Pagination(limit, (page.value - 1) * limit, page.value))
  }

  /** Consecutive pages of one size tile the rows: page p + 1 starts where
      page p ends, and page 1 starts at row 0. Page 0 is accepted and starts
      one chunk before row 0. */
  lemma PagesAreAdjacent(p: int, size: int)
    requires p >= 0 && 0 <= size <= MaxChunkSize
    ensures PaginationParams(Some(p), Some(size)).Ok?
    ensures PaginationParams(Some(p + 1), Some(size)).value.offset
            == PaginationParams(Some(p), Some(size)).value.offset + size
    ensures PaginationParams(Some(1), Some(size)).value.offset == 0
    ensures PaginationParams(Some(0), Some(size)).value.offset == -size
  {
  }
}

=== FILE: reset_tokens.dfy ===
/** Password reset tokens (src/auth/entities/password-reset-token.entity.ts)
    and the operations `AuthService` performs on them. The token string is
    random in the source; here the caller supplies it. */
module ResetTokens {
  import opened Common

  datatype PasswordResetToken = PasswordResetToken(
    id: nat,
    token: string,
    user_id: nat,
    is_active: bool,
    created_at: int,
    expires_at: int)

  /** A reset link lives one hour. */
  const ResetTokenTtl: int := 60 * 60 * 1000

  ghost predicate IdsIncreasing(rows: seq<PasswordResetToken>, nextId: nat)
  {
    && nextId >= 1
    && (forall i, j | 0 <= i < j < |rows| :: rows[i].id < rows[j].id)
    && (forall i | 0 <= i < |rows| :: 1 <= rows[i].id < nextId)
  }

  /** No user has two active reset tokens. */
  ghost predicate OneActivePerUser(rows: seq<PasswordResetToken>)
  {
    forall i, j | 0 <= i < j < |rows| && rows[i].is_active && rows[j].is_active :: rows[i].user_id != rows[j].user_id
  }

  /** `resetToken.expires_at < new Date()`: a token is still accepted at the
      very millisecond it expires. */
  predicate Expired(row: PasswordResetToken, now: int)
  {
    row.expires_at < now
  }

  /** The first active row holding this token
      (`findOne({ where: { token, is_active: true } })`). */
  function FindActiveToken(rows: seq<PasswordResetToken>, token: string): (r: Option<nat>)
    ensures r.Some? ==> r.value < |rows| && rows[r.value].token == token && rows[r.value].is_active
    ensures r.Some? ==> forall j | 0 <= j < r.value :: !(rows[j].token == token && rows[j].is_active)
    ensures r.None? <==> forall i | 0 <= i < |rows| :: !(rows[i].token == token && rows[i].is_active)
  {
    if rows == [] then None
    else if rows[0].token == token && rows[0].is_active then Some(0)
    else
      match FindActiveToken(rows[1..], token)
      case None => None
      case Some(k) => Some(k + 1)
  }

  /** `update({ user_id, is_active: true }, { is_active: false })`. */
  function DeactivateUserTokens(rows: seq<PasswordResetToken>, userId: nat): (r: seq<PasswordResetToken>)
    ensures |r| == |rows|
    ensures forall i | 0 <= i < |rows| ::
              r[i] == if rows[i].user_id == userId && rows[i].is_active then rows[i].(is_active := false) else rows[i]
  {
    if rows == [] then []
    else
      [if rows[0].user_id == userId && rows[0].is_active then rows[0].(is_active := false) else rows[0]]
      + DeactivateUserTokens(rows[1..], userId)
  }

  /** `update(id, { is_active: false })`. */
  function DeactivateTokenId(rows: seq<PasswordResetToken>, id: nat): (r: seq<PasswordResetToken>)
    ensures |r| == |rows|
    ensures forall i | 0 <= i < |rows| :: r[i] == if rows[i].id == id then rows[i].(is_active := false) else rows[i]
  {
    if rows == [] then []
    else [if rows[0].id == id then rows[0].(is_active := false) else rows[0]] + DeactivateTokenId(rows[1..], id)
  }

  /** The table after a reset request of `userId`: every earlier token of the
      user is deactivated and the new one is appended. */
  function Issue(rows: seq<PasswordResetToken>, id: nat, token: string, userId: nat, now: int): seq<PasswordResetToken>
  {
    DeactivateUserTokens(rows, userId) + [PasswordResetToken(id, token, userId, true, now, now + ResetTokenTtl)]
  }

  /** A reset request leaves its user exactly one active token, the new one,
      and keeps every user to at most one. */
  lemma IssueKeepsOneActive(rows: seq<PasswordResetToken>, nextId: nat, token: string, userId: nat, now: int)
    requires IdsIncreasing(rows, nextId) && OneActivePerUser(rows)
    ensures var after := Issue(rows, nextId, token, userId, now);
            && IdsIncreasing(after, nextId + 1)
            && OneActivePerUser(after)
            && (forall i | 0 <= i < |after| && after[i].user_id == userId && after[i].is_active :: i == |rows|)
  {
  }

  /** After a second reset request of the same user, the first token no
      longer finds a row of that user (unless the new token has the same text). */
  lemma EarlierTokenRevoked(rows: seq<PasswordResetToken>, id: nat, first: string, second: string, userId: nat, now: int)
    requires first != second
    ensures var after := Issue(rows, id, second, userId, now);
            var k := FindActiveToken(after, first);
            k.Some? ==> after[k.value].user_id != userId
  {
    var after := Issue(rows, id, second, userId, now);
    var k := FindActiveToken(after, first);
    if k.Some? {
      assert k.value < |rows|;
    }
  }

  /** Deactivation by id keeps ids and the one-active rule. */
  lemma DeactivateTokenIdKeepsInvariants(rows: seq<PasswordResetToken>, nextId: nat, id: nat)
    requires IdsIncreasing(rows, nextId) && OneActivePerUser(rows)
    ensures IdsIncreasing(DeactivateTokenId(rows, id), nextId)
    ensures OneActivePerUser(DeactivateTokenId(rows, id))
  {
  }

  /** A token works once: after the used row is deactivated, looking the
      same token up finds some other row or nothing. */
  lemma ResetSingleUse(rows: seq<PasswordResetToken>, nextId: nat, token: string)
    requires IdsIncreasing(rows, nextId)
    requires FindActiveToken(rows, token).Some?
    ensures var used := rows[FindActiveToken(rows, token).value];
            var k := FindActiveToken(DeactivateTokenId(rows, used.id), token);
            k.Some? ==> DeactivateTokenId(rows, used.id)[k.value].id != used.id
  {
  }
}

=== FILE: sessions.dfy ===
/** The session table (src/auth/entities/session.entity.ts) and the
    operations `AuthService` performs on it: eviction of old sessions
    (`deactivateOldTokens`), bulk deactivation by id or by refresh token,
    and the lookup of an active session by its refresh token. Rows are kept
    in insertion order, so "newest first" is the reverse of table order. */
module Sessions {
  import opened Common

  datatype Session = Session(
    id: nat,
    refresh_token: string,
    user_id: nat,
    device_info: string,
    ip_address: Option<string>,
    is_active: bool,
    created_at: int,
    expires_at: int)

  /** `MAX_ACTIVE_TOKENS`. */
  const MaxActiveTokens: nat := 5

  /** A session row lives 7 days. */
  const SessionTtl: int := 7 * 24 * 60 * 60 * 1000

  /** Row ids are positive and grow with insertion order. */
  ghost predicate IdsIncreasing(s: seq<Session>)
  {
    forall i, j | 0 <= i < j < |s| :: s[i].id < s[j].id
  }

  ghost predicate IdsBelow(s: seq<Session>, nextId: nat)
  {
    nextId >= 1 && forall i | 0 <= i < |s| :: 1 <= s[i].id < nextId
  }

  predicate ActiveFor(row: Session, userId: nat)
  {
    row.user_id == userId && row.is_active
  }

  /** `find({ where: { user_id, is_active: true }, order: { created_at: 'DESC' } })`. */
  function NewestFirst(s: seq<Session>, userId: nat): (r: seq<Session>)
    ensures |r| <= |s|
    ensures forall k | 0 <= k < |r| :: ActiveFor(r[k], userId) && r[k] in s
  {
    if s == [] then []
    else NewestFirst(s[1..], userId) + (if ActiveFor(s[0], userId) then [s[0]] else [])
  }

  /** How many active sessions a user has. */
  function ActiveCount(s: seq<Session>, userId: nat): nat
  {
    |NewestFirst(s, userId)|
  }

  /** At most `MaxActiveTokens` active sessions per user. */
  ghost predicate SessionCap(s: seq<Session>)
  {
    forall u :: ActiveCount(s, u) <= MaxActiveTokens
  }

  /** `b` is `a` with some rows set inactive and nothing else changed. */
  ghost predicate DeactivationOf(a: seq<Session>, b: seq<Session>)
  {
    |a| == |b| && forall i | 0 <= i < |a| :: b[i] == a[i] || b[i] == a[i].(is_active := false)
  }

  function Deactivated(row: Session): Session
  {
    row.(is_active := false)
  }

  /** `update({ id: In(ids) }, { is_active: false })`. */
  function DeactivateIds(s: seq<Session>, ids: set<nat>): (r: seq<Session>)
    ensures DeactivationOf(s, r)
    ensures forall i | 0 <= i < |s| :: r[i] == if s[i].id in ids then Deactivated(s[i]) else s[i]
  {
    if s == [] then []
    else [if s[0].id in ids then Deactivated(s[0]) else s[0]] + DeactivateIds(s[1..], ids)
  }

  /** `update({ refresh_token }, { is_active: false })`. */
  function DeactivateToken(s: seq<Session>, token: string): (r: seq<Session>)
    ensures DeactivationOf(s, r)
    ensures forall i | 0 <= i < |s| :: r[i] == if s[i].refresh_token == token then Deactivated(s[i]) else s[i]
  {
    if s == [] then []
    else [if s[0].refresh_token == token then Deactivated(s[0]) else s[0]] + DeactivateToken(s[1..], token)
  }

  function IdsOf(rows: seq<Session>): set<nat>
  {
    set k | 0 <= k < |rows| :: rows[k].id
  }

  /** `deactivateOldTokens` as the code computes it: list the user's active
      sessions newest first and, when there are `MaxActiveTokens` or more,
      deactivate those from position `MaxActiveTokens - 1` on. */
  function DeactivateOldTokens(s: seq<Session>, userId: nat): seq<Session>
  {
    var active := NewestFirst(s, userId);
    if |active| >= MaxActiveTokens then DeactivateIds(s, IdsOf(active[MaxActiveTokens - 1..])) else s
  }

  /** Reference definition of "keep the `keep` newest": a row of the user is
      deactivated exactly when at least `keep` of the user's active rows are
      newer than it. */
  function KeepNewest(s: seq<Session>, userId: nat, keep: nat): (r: seq<Session>)
    ensures DeactivationOf(s, r)
    ensures forall i | 0 <= i < |s| :: r[i] != s[i] ==> ActiveFor(s[i], userId)
  {
    if s == [] then []
    else
      var rest := KeepNewest(s[1..], userId, keep);
      [if ActiveFor(s[0], userId) && ActiveCount(s[1..], userId) >= keep then Deactivated(s[0]) else s[0]] + rest
  }

  /** The first active row holding this refresh token
      (`findOne({ where: { refresh_token, is_active: true } })`). */
  function FindActiveByToken(s: seq<Session>, token: string): (r: Option<nat>)
    ensures r.Some? ==> r.value < |s| && s[r.value].refresh_token == token && s[r.value].is_active
    ensures r.None? <==> forall i | 0 <= i < |s| :: !(s[i].refresh_token == token && s[i].is_active)
  {
    if s == [] then None
    else if s[0].refresh_token == token && s[0].is_active then Some(0)
    else
      match FindActiveByToken(s[1..], token)
      case None => None
      case Some(k) => Some(k + 1)
  }

  // ---------------------------------------------------------------------
  // Counting lemmas

  /** Appending a row adds it to the front of the newest-first list. */
  lemma {:induction false} NewestFirstAppend(s: seq<Session>, row: Session, userId: nat)
    ensures NewestFirst(s + [row], userId) == (if ActiveFor(row, userId) then [row] else []) + NewestFirst(s, userId)
    decreases |s|
  {
    if s == [] {
      assert NewestFirst([row], userId) == NewestFirst([], userId) + (if ActiveFor(row, userId) then [row] else []);
    } else {
      assert (s + [row])[1..] == s[1..] + [row];
      NewestFirstAppend(s[1..], row, userId);
    }
  }

  /** Deactivating rows never raises anybody's count. */
  lemma {:induction false} DeactivationCount(a: seq<Session>, b: seq<Session>, userId: nat)
    requires DeactivationOf(a, b)
    ensures ActiveCount(b, userId) <= ActiveCount(a, userId)
    decreases |a|
  {
    if a != [] {
      assert DeactivationOf(a[1..], b[1..]) by {
        forall i | 0 <= i < |a[1..]| ensures b[1..][i] == a[1..][i] || b[1..][i] == a[1..][i].(is_active := false) {
          assert b[1..][i] == b[i + 1] && a[1..][i] == a[i + 1];
        }
      }
      DeactivationCount(a[1..], b[1..], userId);
    }
  }

  /** Deactivating rows that belong to another user, or rows of this user
      that are already inactive, leaves this user's list as it was. */
  lemma {:induction false} DeactivationElsewhere(a: seq<Session>, b: seq<Session>, userId: nat)
    requires DeactivationOf(a, b)
    requires forall i | 0 <= i < |a| :: b[i] != a[i] ==> !ActiveFor(a[i], userId)
    ensures NewestFirst(b, userId) == NewestFirst(a, userId)
    decreases |a|
  {
    if a != [] {
      forall i | 0 <= i < |a[1..]|
        ensures b[1..][i] == a[1..][i] || b[1..][i] == a[1..][i].(is_active := false)
        ensures b[1..][i] != a[1..][i] ==> !ActiveFor(a[1..][i], userId)
      {
        assert b[1..][i] == b[i + 1] && a[1..][i] == a[i + 1];
      }
      DeactivationElsewhere(a[1..], b[1..], userId);
    }
  }

  /** Deactivating one active row of a user lowers that user's count by one. */
  lemma {:induction false} DeactivateOneCount(s: seq<Session>, k: nat, userId: nat)
    requires k < |s| && ActiveFor(s[k], userId)
    ensures ActiveCount(s[k := Deactivated(s[k])], userId) == ActiveCount(s, userId) - 1
    decreases |s|
  {
    var t := s[k := Deactivated(s[k])];
    if k == 0 {
      assert t[1..] == s[1..];
    } else {
      assert t[1..] == s[1..][k - 1 := Deactivated(s[k])];
      DeactivateOneCount(s[1..], k - 1, userId);
    }
  }

  // ---------------------------------------------------------------------
  // Eviction

  /** A row's id is smaller than the id of every row of the rest of the table. */
  lemma HeadIdSmallest(s: seq<Session>)
    requires s != [] && IdsIncreasing(s)
    ensures IdsIncreasing(s[1..])
    ensures forall r | r in s[1..] :: s[0].id < r.id
  {
  }

  /** Adding ids that no row carries does not change a bulk update by id. */
  lemma {:induction false} DeactivateIdsIgnoresAbsent(s: seq<Session>, ids: set<nat>, extra: set<nat>)
    requires forall r | r in s :: r.id !in extra
    ensures DeactivateIds(s, ids + extra) == DeactivateIds(s, ids)
    decreases |s|
  {
    if s != [] {
      assert s[0] in s;
      forall r | r in s[1..] ensures r.id !in extra { assert r in s; }
      DeactivateIdsIgnoresAbsent(s[1..], ids, extra);
    }
  }

  /** The rows of a newest-first list from position `keep` on. */
  function OlderThan(rows: seq<Session>, keep: nat): seq<Session>
  {
    if keep <= |rows| then rows[keep..] else []
  }

  /** With unique, increasing ids, deactivating the ids of the rows from
      position `keep` of the newest-first list is the reference eviction
      `KeepNewest(s, userId, keep)`. */
  lemma {:induction false} DeactivateOlderIsKeepNewest(s: seq<Session>, userId: nat, keep: nat)
    requires IdsIncreasing(s)
    ensures DeactivateIds(s, IdsOf(OlderThan(NewestFirst(s, userId), keep))) == KeepNewest(s, userId, keep)
    decreases |s|
  {
    if s != [] {
      var x, t := s[0], s[1..];
      HeadIdSmallest(s);
      var ids := IdsOf(OlderThan(NewestFirst(t, userId), keep));
      var all := IdsOf(OlderThan(NewestFirst(s, userId), keep));
      DeactivateOlderIsKeepNewest(t, userId, keep);
      OlderIdsStep(s, userId, keep);
      HeadNotOlder(s, userId, keep);
      var evicted := ActiveFor(x, userId) && ActiveCount(t, userId) >= keep;
      DeactivateIdsIgnoresAbsent(t, ids, if evicted then {x.id} else {});
      assert DeactivateIds(t, all) == KeepNewest(t, userId, keep);
      assert (x.id in all) == evicted;
    }
  }

  /** The first row of the table is not among the older rows of the rest. */
  lemma HeadNotOlder(s: seq<Session>, userId: nat, keep: nat)
    requires s != [] && IdsIncreasing(s)
    ensures s[0].id !in IdsOf(OlderThan(NewestFirst(s[1..], userId), keep))
  {
    var older := OlderThan(NewestFirst(s[1..], userId), keep);
    HeadIdSmallest(s);
    forall k | 0 <= k < |older| ensures older[k].id != s[0].id {
      assert older[k] in NewestFirst(s[1..], userId);
      assert older[k] in s[1..];
    }
  }

  lemma IdsOfAppend(rows: seq<Session>, x: Session)
    ensures IdsOf(rows + [x]) == IdsOf(rows) + {x.id}
  {
    assert forall k | 0 <= k < |rows| :: (rows + [x])[k] == rows[k];
    assert (rows + [x])[|rows|] == x;
  }

  /** How the ids to evict grow when one older row is put in front of the table. */
  lemma OlderIdsStep(s: seq<Session>, userId: nat, keep: nat)
    requires s != []
    ensures var x, t := s[0], s[1..];
            IdsOf(OlderThan(NewestFirst(s, userId), keep))
            == IdsOf(OlderThan(NewestFirst(t, userId), keep))
               + if ActiveFor(x, userId) && ActiveCount(t, userId) >= keep then {x.id} else {}
  {
    var x, t := s[0], s[1..];
    var older := OlderThan(NewestFirst(t, userId), keep);
    if ActiveFor(x, userId) && ActiveCount(t, userId) >= keep {
      assert NewestFirst(s, userId) == NewestFirst(t, userId) + [x];
      assert OlderThan(NewestFirst(s, userId), keep) == older + [x];
      IdsOfAppend(older, x);
    } else if ActiveFor(x, userId) {
      assert OlderThan(NewestFirst(s, userId), keep) == [];
      assert older == [];
    } else {
      assert NewestFirst(s, userId) == NewestFirst(t, userId);
    }
  }

  /** Keeping the `keep` newest leaves exactly the first `keep` rows of the
      newest-first list active. */
  lemma {:induction false} KeepNewestKeepsPrefix(s: seq<Session>, userId: nat, keep: nat)
    ensures var before := NewestFirst(s, userId);
            NewestFirst(KeepNewest(s, userId, keep), userId) == before[..if keep <= |before| then keep else |before|]
    decreases |s|
  {
    if s != [] {
      var x, t := s[0], s[1..];
      var r := KeepNewest(s, userId, keep);
      assert r[1..] == KeepNewest(t, userId, keep);
      KeepNewestKeepsPrefix(t, userId, keep);
    }
  }

  /** Keeping the newest rows of one user leaves every other user's list as it was. */
  lemma KeepNewestElsewhere(s: seq<Session>, userId: nat, keep: nat, other: nat)
    requires other != userId
    ensures NewestFirst(KeepNewest(s, userId, keep), other) == NewestFirst(s, other)
  {
    DeactivationElsewhere(s, KeepNewest(s, userId, keep), other);
  }

  /** `deactivateOldTokens`, as computed by the code, is the reference
      eviction: with `MaxActiveTokens` or more active sessions, exactly the
      `MaxActiveTokens - 1` newest stay active; otherwise nothing changes;
      other users' rows and inactive rows are never touched. */
  lemma DeactivateOldTokensSpec(s: seq<Session>, userId: nat)
    requires IdsIncreasing(s)
    ensures ActiveCount(s, userId) >= MaxActiveTokens ==>
              DeactivateOldTokens(s, userId) == KeepNewest(s, userId, MaxActiveTokens - 1)
              && NewestFirst(DeactivateOldTokens(s, userId), userId) == NewestFirst(s, userId)[..MaxActiveTokens - 1]
    ensures ActiveCount(s, userId) < MaxActiveTokens ==> DeactivateOldTokens(s, userId) == s
    ensures DeactivationOf(s, DeactivateOldTokens(s, userId))
    ensures forall i | 0 <= i < |s| :: DeactivateOldTokens(s, userId)[i] != s[i] ==> ActiveFor(s[i], userId)
    ensures forall v | v != userId :: NewestFirst(DeactivateOldTokens(s, userId), v) == NewestFirst(s, v)
  {
    if ActiveCount(s, userId) >= MaxActiveTokens {
      DeactivateOlderIsKeepNewest(s, userId, MaxActiveTokens - 1);
      KeepNewestKeepsPrefix(s, userId, MaxActiveTokens - 1);
      forall v | v != userId ensures NewestFirst(DeactivateOldTokens(s, userId), v) == NewestFirst(s, v) {
        KeepNewestElsewhere(s, userId, MaxActiveTokens - 1, v);
      }
    }
  }

  /** Eviction followed by one new session of the same user keeps every
      user within the cap. */
  lemma EvictThenAddKeepsCap(s: seq<Session>, userId: nat, row: Session)
    requires IdsIncreasing(s) && SessionCap(s) && row.user_id == userId
    ensures SessionCap(DeactivateOldTokens(s, userId) + [row])
    ensures ActiveCount(DeactivateOldTokens(s, userId) + [row], userId) <= MaxActiveTokens
  {
    var evicted := DeactivateOldTokens(s, userId);
    DeactivateOldTokensSpec(s, userId);
    forall u ensures ActiveCount(evicted + [row], u) <= MaxActiveTokens {
      NewestFirstAppend(evicted, row, u);
      assert ActiveCount(s, u) <= MaxActiveTokens;
    }
  }

  /** Replacing one active session of a user by a new one of the same user
      keeps every user within the cap. */
  lemma ReplaceKeepsCap(s: seq<Session>, k: nat, row: Session)
    requires SessionCap(s) && k < |s| && s[k].is_active && row.user_id == s[k].user_id
    ensures SessionCap(s[k := Deactivated(s[k])] + [row])
  {
    var t := s[k := Deactivated(s[k])];
    assert DeactivationOf(s, t);
    forall u ensures ActiveCount(t + [row], u) <= MaxActiveTokens {
      NewestFirstAppend(t, row, u);
      assert ActiveCount(s, u) <= MaxActiveTokens;
      if u == row.user_id {
        DeactivateOneCount(s, k, u);
      } else {
        DeactivationCount(s, t, u);
      }
    }
  }

  /** Deactivation keeps the cap. */
  lemma DeactivationKeepsCap(a: seq<Session>, b: seq<Session>)
    requires SessionCap(a) && DeactivationOf(a, b)
    ensures SessionCap(b)
  {
    forall u ensures ActiveCount(b, u) <= MaxActiveTokens {
      DeactivationCount(a, b, u);
      assert ActiveCount(a, u) <= MaxActiveTokens;
    }
  }

  /** With unique ids, updating by the id of a found row updates that row alone. */
  lemma DeactivateIdsSingle(s: seq<Session>, k: nat)
    requires IdsIncreasing(s) && k < |s|
    ensures DeactivateIds(s, {s[k].id}) == s[k := Deactivated(s[k])]
  {
    var r := DeactivateIds(s, {s[k].id});
    forall i | 0 <= i < |s| ensures r[i] == s[k := Deactivated(s[k])][i] {
      if i < k { assert s[i].id < s[k].id; }
      if i > k { assert s[k].id < s[i].id; }
    }
  }

  /** Once the row a refresh token found is deactivated, the same token no
      longer finds that row. */
  lemma {:induction false} RevokedNotFoundAgain(s: seq<Session>, token: string)
    requires FindActiveByToken(s, token).Some?
    ensures var k := FindActiveByToken(s, token).value;
            FindActiveByToken(s[k := Deactivated(s[k])], token) != Some(k)
  {
    var k := FindActiveByToken(s, token).value;
    var t := s[k := Deactivated(s[k])];
    assert !t[k].is_active;
  }

  /** Logging out twice is logging out once. */
  lemma DeactivateTokenIdempotent(s: seq<Session>, token: string)
    ensures DeactivateToken(DeactivateToken(s, token), token) == DeactivateToken(s, token)
  {
  }

  /** After logging out, no active row holds the token. */
  lemma DeactivateTokenFindsNothing(s: seq<Session>, token: string)
    ensures FindActiveByToken(DeactivateToken(s, token), token).None?
  {
  }

  /** Deactivation keeps ids. */
  lemma DeactivationKeepsIds(a: seq<Session>, b: seq<Session>, nextId: nat)
    requires DeactivationOf(a, b) && IdsIncreasing(a) && IdsBelow(a, nextId)
    ensures IdsIncreasing(b) && IdsBelow(b, nextId)
  {
  }
}

=== FILE: sorting.dfy ===
/** The `SortingParams` request decorator
    (src/common/decorators/sorting-params.decorator.ts): parses
    `sort=<field>:<direction>` against a list of sortable fields. */
module Sorting {
  import opened Common
  import opened Text

  datatype Direction = ASC | DESC

  /** A character of the class `[a-zA-Z0-9_]`. */
  predicate IsWordChar(c: char)
  {
    ('a' <= c <= 'z') || ('A' <= c <= 'Z') || ('0' <= c <= '9') || c == '_'
  }

  /** The alternatives `ASC|DESC|asc|desc` (case-sensitive, no mixed case). */
  predicate IsDirectionText(d: string)
  {
    d == "ASC" || d == "DESC" || d == "asc" || d == "desc"
  }

  /** The whole string matches `^([a-zA-Z0-9_]+):(ASC|DESC|asc|desc)$`. */
  predicate MatchesSortPattern(s: string)
  {
    exists i | 0 < i < |s| :: s[i] == ':' && (forall j | 0 <= j < i :: IsWordChar(s[j])) && IsDirectionText(s[i + 1..])
  }

  /** `direction.toUpperCase()` for the four accepted spellings. */
  function DirectionOf(d: string): Direction
  {
    if d == "ASC" || d == "asc" then ASC else DESC
  }

  /** A string that matches the pattern splits on ':' into exactly the field
      and the direction text the pattern matched. */
  lemma SortPartsAt(s: string, i: nat)
    requires 0 < i < |s| && s[i] == ':' && IsDirectionText(s[i + 1..])
    requires forall j | 0 <= j < i :: IsWordChar(s[j])
    ensures Split(s, ':') == [s[..i], s[i + 1..]]
  {
    assert forall j | 0 <= j < i :: s[j] != ':';
    assert ':' !in s[i + 1..];
    SplitAt(s, i, ':');
  }

  lemma SortParts(s: string)
    requires MatchesSortPattern(s)
    ensures exists i | 0 < i < |s| ::
              && s[i] == ':' && IsDirectionText(s[i + 1..])
              && Split(s, ':') == [s[..i], s[i + 1..]]
  {
    var i :| 0 < i < |s| && s[i] == ':' && (forall j | 0 <= j < i :: IsWordChar(s[j])) && IsDirectionText(s[i + 1..]);
    SortPartsAt(s, i);
  }

  /** Parses the `sort` query parameter. `validParams` is `None` when the
      decorator was given something that is not an object. */
  function SortingParams(sort: Option<string>, validParams: Option<seq<string>>): (r: Result<Option<map<string, Direction>>>)
    // no sort requested: nothing is validated
    ensures (sort.None? || sort.value == "") ==> r == Ok(None)
    ensures sort.Some? && sort.value != "" && (validParams.None? || !MatchesSortPattern(sort.value)) ==>
              r == Err(Raise(BadRequest, InvalidSortParams))
    // an accepted sort is one allowed word field, a colon and a direction, and
    // the result maps that field alone to the upper-cased direction
    ensures r.Ok? && r.value.Some? ==>
              exists i | 0 < i < |sort.value| ::
                && sort.value[i] == ':'
                && sort.value[..i] in validParams.value
                && IsDirectionText(sort.value[i + 1..])
                && r.value.value == map[sort.value[..i] := DirectionOf(sort.value[i + 1..])]
    ensures r.Ok? && r.value.Some? ==> |r.value.value| == 1
  {
    if sort.None? || sort.value == "" then Ok(None)
    else if validParams.None? then Err(Raise(BadRequest, InvalidSortParams))
    else if !MatchesSortPattern(sort.value) then Err(Raise(BadRequest, InvalidSortParams))
    else
      var parts := Split(sort.value, ':');
      var field, direction := parts[0], parts[1];
      if field !in validParams.value then Err(RaiseWith(BadRequest, InvalidSortParams, field))
      else
        SortParts(sort.value);
        Ok(Some(map[field := DirectionOf(direction)]))
  }

  /** A well-formed sort on an allowed field is accepted with exactly that
      field and direction; one on a field outside the list is refused with
      the field named in the message. */
  lemma SortRoundTrip(field: string, d: string, allowed: seq<string>)
    requires |field| > 0 && forall j | 0 <= j < |field| :: IsWordChar(field[j])
    requires IsDirectionText(d)
    ensures field in allowed ==>
              SortingParams(Some(field + ":" + d), Some(allowed)) == Ok(Some(map[field := DirectionOf(d)]))
    ensures field !in allowed ==>
              SortingParams(Some(field + ":" + d), Some(allowed)) == Err(RaiseWith(BadRequest, InvalidSortParams, field))
  {
    var s := field + ":" + d;
    assert s[|field|] == ':' && s[..|field|] == field && s[|field| + 1..] == d;
    assert MatchesSortPattern(s);
    SortPartsAt(s, |field|);
  }

  /** The field of a match is the whole run of word characters before the
      first colon. */
  lemma WordPrefixEndsAtColon(s: string, field: string, i: nat)
    requires |field| < |s| && s[..|field|] == field && s[|field|] == ':'
    requires forall j | 0 <= j < |field| :: IsWordChar(field[j])
    requires i < |s| && s[i] == ':' && forall j | 0 <= j < i :: IsWordChar(s[j])
    ensures i == |field|
  {
    assert forall j | 0 <= j < |field| :: s[j] == field[j] && IsWordChar(s[j]);
    assert !IsWordChar(s[|field|]);
  }

  /** The direction is case-sensitive: `Asc` is not one of the alternatives,
      so the whole parameter is refused before the field is looked up. */
  lemma MixedCaseRejected(field: string, allowed: seq<string>)
    requires |field| > 0 && forall j | 0 <= j < |field| :: IsWordChar(field[j])
    ensures SortingParams(Some(field + ":Asc"), Some(allowed)) == Err(Raise(BadRequest, InvalidSortParams))
  {
    var s := field + ":Asc";
    assert s[..|field|] == field && s[|field|] == ':';
    forall i | 0 < i < |s| && s[i] == ':' && (forall j | 0 <= j < i :: IsWordChar(s[j]))
      ensures !IsDirectionText(s[i + 1..])
    {
      WordPrefixEndsAtColon(s, field, i);
      assert s[i + 1..] == "Asc";
    }
  }
}

=== FILE: text.dfy ===
/** The JavaScript string operations the query-parameter parsers rely on:
    `String.prototype.split` with a one-character separator, and the
    whitespace test behind `s.trim() === ''`. */
module Text {

  /** The code points `String.prototype.trim` removes: the ECMAScript
      WhiteSpace and LineTerminator productions. */
  predicate IsWhitespace(c: char)
  {
    || c == '\t' || c == '\n' || c == '\U{000B}' || c == '\U{000C}' || c == '\r'
    || c == ' ' || c == '\U{00A0}' || c == '\U{1680}'
    || ('\U{2000}' <= c <= '\U{200A}')
    || c == '\U{2028}' || c == '\U{2029}' || c == '\U{202F}' || c == '\U{205F}'
    || c == '\U{3000}' || c == '\U{FEFF}'
  }

  /** `s.trim() === ''`: the empty string and strings of whitespace only. */
  predicate IsBlank(s: string)
  {
    forall i | 0 <= i < |s| :: IsWhitespace(s[i])
  }

  /** `s.split(sep)` for a one-character separator: the maximal runs between
      separators, always at least one part (`"".split(",")` is `[""]`). */
  function Split(s: string, sep: char): (parts: seq<string>)
    ensures |parts| >= 1
    ensures forall k | 0 <= k < |parts| :: sep !in parts[k]
    ensures |parts| == 1 <==> sep !in s
    ensures sep !in s ==> parts == [s]
    decreases |s|
  {
    if s == [] then [""]
    else
      var rest := Split(s[1..], sep);
      if s[0] == sep then [""] + rest
      else
        assert [s[0]] + s[1..] == s;
        [[s[0]] + rest[0]] + rest[1..]
  }

  /** `parts.join(sep)`. */
  function Join(parts: seq<string>, sep: char): string
    requires |parts| >= 1
    decreases |parts|
  {
    if |parts| == 1 then parts[0] else parts[0] + [sep] + Join(parts[1..], sep)
  }

  /** Splitting loses nothing: joining the parts with the separator gives
      back the original string. */
  lemma {:induction false} JoinSplit(s: string, sep: char)
    ensures Join(Split(s, sep), sep) == s
    decreases |s|
  {
    if s != [] {
      JoinSplit(s[1..], sep);
      var rest := Split(s[1..], sep);
      if s[0] != sep {
        if |rest| == 1 {
          assert Split(s, sep) == [[s[0]] + rest[0]];
        } else {
          assert Split(s, sep)[1..] == rest[1..];
          assert Join(rest, sep) == rest[0] + [sep] + Join(rest[1..], sep);
        }
      } else {
        assert Split(s, sep)[1..] == rest;
      }
    }
  }

  /** The first separator, at index `i`, ends the first part. */
  lemma {:induction false} SplitAt(s: string, i: nat, sep: char)
    requires i < |s| && s[i] == sep
    requires forall j | 0 <= j < i :: s[j] != sep
    ensures Split(s, sep) == [s[..i]] + Split(s[i + 1..], sep)
    decreases i
  {
    if i == 0 {
      assert s[..0] == [];
    } else {
      assert forall j | 0 <= j < i - 1 :: s[1..][j] == s[j + 1];
      SplitAt(s[1..], i - 1, sep);
      assert s[1..][i..] == s[i + 1..];
      assert [s[0]] + s[1..][..i - 1] == s[..i];
    }
  }

  /** A string without the separator splits into itself; a separator after
      such a prefix ends the first part. */
  lemma {:induction false} SplitAfterPrefix(a: string, b: string, sep: char)
    requires sep !in a
    ensures Split(a + [sep] + b, sep) == [a] + Split(b, sep)
    decreases |a|
  {
    if a == [] {
      assert a + [sep] + b == [sep] + b;
      assert ([sep] + b)[1..] == b;
    } else {
      SplitAfterPrefix(a[1..], b, sep);
      assert (a + [sep] + b)[1..] == a[1..] + [sep] + b;
      assert [a[0]] + a[1..] == a;
    }
  }
}

=== FILE: transactions.dfy ===
/** The transaction runner and the `*WithTransactions` helpers
    (src/database/transaction-factory.ts). The runner wraps a database query
    runner; the model keeps the query runner's state (whether a transaction
    is open, at which isolation level, whether the connection was released)
    next to the runner's own `hasTransactionDestroyed` flag. Rolling back
    hands back the snapshot of the transactional state taken when the
    transaction started, for the caller to restore. */
module Transactions {
  import opened Common

  datatype IsolationLevel = ReadUncommitted | ReadCommitted | RepeatableRead | Serializable

  const DefaultIsolationLevel: IsolationLevel := ReadCommitted

  /** The query runner's refusal to finish a transaction it never started. */
  datatype RunnerError = TransactionNotStarted

  datatype Outcome = Pass | Fail(error: RunnerError)

  class TransactionRunner<S> {
    var hasTransactionDestroyed: bool
    var isTransactionActive: bool
    var isolationLevel: Option<IsolationLevel>
    var released: bool
    /** What the transactional writes are measured against: the state when
        the open transaction began. */
    var snapshot: Option<S>

    /** Every open transaction has its isolation level and its snapshot. */
    ghost predicate Valid()
      reads this
    {
      isTransactionActive <==> (snapshot.Some? && isolationLevel.Some?)
    }

    /** `createTransaction`: a runner over a freshly connected query runner. */
    constructor ()
      ensures Valid()
      ensures !hasTransactionDestroyed && !isTransactionActive && !released
      ensures isolationLevel == None && snapshot == None
    {
      hasTransactionDestroyed := false;
      isTransactionActive := false;
      isolationLevel := None;
      released := false;
      snapshot := None;
    }

    /** Opens a transaction unless one is already open. */
    method StartTransaction(current: S, level: IsolationLevel)
      requires Valid()
      modifies this
      ensures Valid()
      ensures old(isTransactionActive) ==> unchanged(this)
      ensures !old(isTransactionActive) ==>
                && isTransactionActive && isolationLevel == Some(level) && snapshot == Some(current)
                && hasTransactionDestroyed == old(hasTransactionDestroyed) && released == old(released)
    {
      if isTransactionActive {
        return;
      }
      isTransactionActive := true;
      isolationLevel := Some(level);
      snapshot := Some(current);
    }

    /** Makes the open transaction's writes permanent; does nothing once the
        runner has been released. */
    method CommitTransaction() returns (r: Outcome)
      requires Valid()
      modifies this
      ensures Valid()
      ensures old(hasTransactionDestroyed) ==> unchanged(this) && r == Pass
      ensures !old(hasTransactionDestroyed) && !old(isTransactionActive) ==> unchanged(this) && r == Fail(TransactionNotStarted)
      ensures !old(hasTransactionDestroyed) && old(isTransactionActive) ==>
                && r == Pass && !isTransactionActive && snapshot == None && isolationLevel == None
                && hasTransactionDestroyed == old(hasTransactionDestroyed) && released == old(released)
    {
      if hasTransactionDestroyed {
        return Pass;
      }
      if !isTransactionActive {
        return Fail(TransactionNotStarted);
      }
      isTransactionActive, snapshot, isolationLevel := false, None, None;
      r := Pass;
    }

    /** Abandons the open transaction and returns the state it started from;
        does nothing once the runner has been released. */
    method RollbackTransaction() returns (r: Outcome, restore: Option<S>)
      requires Valid()
      modifies this
      ensures Valid()
      ensures old(hasTransactionDestroyed) ==> unchanged(this) && r == Pass && restore == None
      ensures !old(hasTransactionDestroyed) && !old(isTransactionActive) ==>
                unchanged(this) && r == Fail(TransactionNotStarted) && restore == None
      ensures !old(hasTransactionDestroyed) && old(isTransactionActive) ==>
                && r == Pass && restore == old(snapshot)
                && !isTransactionActive && snapshot == None && isolationLevel == None
                && hasTransactionDestroyed == old(hasTransactionDestroyed) && released == old(released)
    {
      if hasTransactionDestroyed {
        return Pass, None;
      }
      if !isTransactionActive {
        return Fail(TransactionNotStarted), None;
      }
      restore := snapshot;
      isTransactionActive, snapshot, isolationLevel := false, None, None;
      r := Pass;
    }

    /** Returns the connection; from here on commit and rollback do nothing. */
    method ReleaseTransaction()
      requires Valid()
      modifies this
      ensures Valid()
      ensures hasTransactionDestroyed && released
      ensures isTransactionActive == old(isTransactionActive) && snapshot == old(snapshot)
      ensures isolationLevel == old(isolationLevel)
    {
      hasTransactionDestroyed := true;
      released := true;
    }
  }

  /** A client of the runner: once released, neither commit nor rollback
      touches the runner again, and a second release keeps it released. */
  method ReleaseIsAbsorbing<S>(runner: TransactionRunner<S>) returns (c: Outcome, r: Outcome, restore: Option<S>)
    requires runner.Valid()
    modifies runner
    ensures c == Pass && r == Pass && restore == None
    ensures runner.hasTransactionDestroyed && runner.released
    ensures runner.isTransactionActive == old(runner.isTransactionActive)
    ensures runner.snapshot == old(runner.snapshot) && runner.isolationLevel == old(runner.isolationLevel)
  {
    runner.ReleaseTransaction();
    c := runner.CommitTransaction();
    r, restore := runner.RollbackTransaction();
    runner.ReleaseTransaction();
  }

  /** Where a `*WithTransactions` helper sends its operation. */
  datatype Executor<M> = TransactionManager(manager: M) | PlainRepository

  /** The repository operations that have a `*WithTransactions` form. */
  datatype Operation = Save | Update | Delete | SoftDelete | Restore

  /** `saveWithTransactions`, `updateWithTransactions`, `deleteWithTransactions`,
      `softDeleteWithTransactions`, `restoreWithTransactions`: the operation
      goes to the transaction manager when one is supplied, to the plain
      repository otherwise, and is never changed on the way. */
  function WithTransactions<M>(op: Operation, transactionManager: Option<M>): (call: (Operation, Executor<M>))
    ensures call.0 == op
    ensures call.1.TransactionManager? <==> transactionManager.Some?
    ensures call.1.TransactionManager? ==> call.1.manager == transactionManager.value
  {
    match transactionManager
    case Some(manager) => (op, TransactionManager(manager))
    case None => (op, PlainRepository)
  }
}

=== FILE: users.dfy ===
/** The user table and `UsersService` (src/users/users.service.ts). A user
    row carries the value of its one-to-one password row, or `None` when the
    user has no password row. */
module Users {
  import opened Common
  import opened Transactions

  datatype User = User(
    id: nat,
    first_name: string,
    last_name: Option<string>,
    email: string,
    is_active: bool,
    is_verified: bool,
    password: Option<string>)

  /** Row ids are positive and grow with insertion order, so they are unique. */
  ghost predicate IdsIncreasing(users: seq<User>, nextId: nat)
  {
    && nextId >= 1
    && (forall i, j | 0 <= i < j < |users| :: users[i].id < users[j].id)
    && (forall i | 0 <= i < |users| :: 1 <= users[i].id < nextId)
  }

  /** The position of the row with this id, if any. */
  function FindById(users: seq<User>, id: nat): (r: Option<nat>)
    ensures r.Some? ==> r.value < |users| && users[r.value].id == id
    ensures r.None? <==> forall i | 0 <= i < |users| :: users[i].id != id
  {
    if users == [] then None
    else if users[0].id == id then Some(0)
    else
      match FindById(users[1..], id)
      case None => None
      case Some(k) => Some(k + 1)
  }

  /** The position of the first row with this email, if any (the column is
      unique in the schema, so it is the only one). */
  function FindByEmail(users: seq<User>, email: string): (r: Option<nat>)
    ensures r.Some? ==> r.value < |users| && users[r.value].email == email
    ensures r.Some? ==> forall j | 0 <= j < r.value :: users[j].email != email
    ensures r.None? <==> forall i | 0 <= i < |users| :: users[i].email != email
  {
    if users == [] then None
    else if users[0].email == email then Some(0)
    else
      match FindByEmail(users[1..], email)
      case None => None
      case Some(k) => Some(k + 1)
  }

  /** A row as read without the password relation. */
  function WithoutPassword(user: User): User
  {
    user.(password := None)
  }

  /** `update({ id }, { is_verified: true })`. */
  function MarkVerified(users: seq<User>, id: nat): (r: seq<User>)
    ensures |r| == |users|
    ensures forall i | 0 <= i < |users| :: r[i] == if users[i].id == id then users[i].(is_verified := true) else users[i]
  {
    if users == [] then []
    else [if users[0].id == id then users[0].(is_verified := true) else users[0]] + MarkVerified(users[1..], id)
  }

  /** Marking a user verified keeps every row's id. */
  lemma MarkVerifiedKeepsIds(users: seq<User>, nextId: nat, id: nat)
    requires IdsIncreasing(users, nextId)
    ensures IdsIncreasing(MarkVerified(users, id), nextId)
  {
    var r := MarkVerified(users, id);
    assert forall i | 0 <= i < |users| :: r[i].id == users[i].id;
  }

  /** JavaScript truthiness of an optional string. */
  predicate Provided(s: Option<string>)
  {
    s.Some? && s.value != ""
  }

  /** The public projection returned by `register`. */
  datatype UserSummary = UserSummary(email: string, is_verified: bool)

  class UsersService {
    var users: seq<User>
    var nextId: nat

    ghost predicate Valid()
      reads this
    {
      IdsIncreasing(users, nextId)
    }

    constructor ()
      ensures Valid() && users == [] && nextId == 1
    {
      users := [];
      nextId := 1;
    }

    /** `create`: inside its own transaction, refuses a non-empty email that
        is already taken, then inserts the row. A password row is attached
        only when a non-empty password is given; the result never carries it. */
    method Create(first_name: string, last_name: Option<string>, email: string, password: Option<string>, is_verified: Option<bool>)
      returns (r: Result<User>)
      requires Valid()
      modifies this
      ensures Valid()
      ensures email != "" && FindByEmail(old(users), email).Some? ==>
                r == Err(Raise(Conflict, UserAlreadyExists)) && users == old(users) && nextId == old(nextId)
      ensures !(email != "" && FindByEmail(old(users), email).Some?) ==>
                var row := User(old(nextId), first_name, last_name, email, true,
                                is_verified == Some(true), if Provided(password) then password else None);
                && users == old(users) + [row]
                && nextId == old(nextId) + 1
                && r == Ok(WithoutPassword(row))
    {
      var runner := new TransactionRunner<seq<User>>();
      runner.StartTransaction(users, DefaultIsolationLevel);
      if email != "" && FindByEmail(users, email).Some? {
        var _, restore := runner.RollbackTransaction();
        if restore.Some? {
          users := restore.value;
        }
        runner.ReleaseTransaction();
        return Err(Raise(Conflict, UserAlreadyExists));
      }
      var row := User(nextId, first_name, last_name, email, true,
                      is_verified == Some(true), if Provided(password) then password else None);
      users := users + [row];
      nextId := nextId + 1;
      var _ := runner.CommitTransaction();
      runner.ReleaseTransaction();
      r := Ok(WithoutPassword(row));
    }

    /** `findOne`: a falsy id (0) is looked up as `IS NULL`, which no row matches. */
    method FindOne(id: nat) returns (r: Result<User>)
      requires Valid()
      ensures id == 0 || FindById(users, id).None? ==> r == Err(Raise(NotFound, UserNotFound))
      ensures id != 0 && FindById(users, id).Some? ==> r == Ok(WithoutPassword(users[FindById(users, id).value]))
      ensures r.Ok? ==> id != 0 && exists i | 0 <= i < |users| :: users[i].id == id && r.value == WithoutPassword(users[i])
    {
      if id == 0 {
        return Err(Raise(NotFound, UserNotFound));
      }
      var k := FindById(users, id);
      if k.None? {
        return Err(Raise(NotFound, UserNotFound));
      }
      r := Ok(WithoutPassword(users[k.value]));
    }

    /** `findOneByEmail`: `None` (JavaScript null) for an unknown email. */
    method FindOneByEmail(email: string) returns (r: Option<User>)
      requires Valid()
      ensures r.None? <==> forall i | 0 <= i < |users| :: users[i].email != email
      ensures r.Some? ==> r.value.email == email && r.value.password.None?
      ensures r.Some? ==> FindByEmail(users, email).Some? && r.value == WithoutPassword(users[FindByEmail(users, email).value])
    {
      var k := FindByEmail(users, email);
      if k.None? {
        return None;
      }
      r := Some(WithoutPassword(users[k.value]));
    }

    /** `findOneByEmailWithPassword`: an unknown email is refused as
        Unauthorized without an error code. */
    method FindOneByEmailWithPassword(email: string) returns (r: Result<User>)
      requires Valid()
      ensures r.Err? <==> forall i | 0 <= i < |users| :: users[i].email != email
      ensures r.Err? ==> r.error == UnauthorizedDefault
      ensures r.Ok? ==> r.value.email == email && FindByEmail(users, email).Some? && r.value == users[FindByEmail(users, email).value]
    {
      var k := FindByEmail(users, email);
      if k.None? {
        return Err(UnauthorizedDefault);
      }
      r := Ok(users[k.value]);
    }

    /** `update`: inside its own transaction, overwrites email and names and,
        when a non-empty password is given, the password value with its
        caller-supplied hash. A user without a password row cannot take a
        new password: the code dereferences the missing row. */
    method Update(id: nat, first_name: string, last_name: Option<string>, email: string, password: Option<string>, hashed: string)
      returns (r: Result<User>)
      requires Valid()
      modifies this
      ensures Valid() && nextId == old(nextId)
      ensures FindById(old(users), id).None? ==> r == Err(NotFoundDefault) && users == old(users)
      ensures FindById(old(users), id).Some? ==>
                var k := FindById(old(users), id).value;
                var before := old(users)[k];
                if Provided(password) && before.password.None? then
                  r == Err(Internal) && users == old(users)
                else
                  var after := before.(email := email, first_name := first_name, last_name := last_name,
                                       password := if Provided(password) then Some(hashed) else before.password);
                  users == old(users)[k := after] && r == Ok(WithoutPassword(after))
    {
      var runner := new TransactionRunner<seq<User>>();
      runner.StartTransaction(users, DefaultIsolationLevel);
      var k := FindById(users, id);
      var failure: Option<Failure> := None;
      if k.None? {
        failure := Some(NotFoundDefault);
      } else if Provided(password) && users[k.value].password.None? {
        failure := Some(Internal);
      }
      if failure.Some? {
        var _, restore := runner.RollbackTransaction();
        if restore.Some? {
          users := restore.value;
        }
        runner.ReleaseTransaction();
        return Err(failure.value);
      }
      var before := users[k.value];
      var after := before.(email := email, first_name := first_name, last_name := last_name,
                           password := if Provided(password) then Some(hashed) else before.password);
      users := users[k.value := after];
      var _ := runner.CommitTransaction();
      runner.ReleaseTransaction();
      r := Ok(WithoutPassword(after));
    }

    /** `updatePassword`: replaces one user's password value and nothing else. */
    method UpdatePassword(userId: nat, hashed: string) returns (r: Result<()>)
      requires Valid()
      modifies this
      ensures Valid() && nextId == old(nextId)
      ensures FindById(old(users), userId).None? ==> r == Err(Raise(NotFound, UserNotFound)) && users == old(users)
      ensures FindById(old(users), userId).Some? ==>
                var k := FindById(old(users), userId).value;
                if old(users)[k].password.None? then r == Err(Internal) && users == old(users)
                else r == Ok(()) && users == old(users)[k := old(users)[k].(password := Some(hashed))]
    {
      var k := FindById(users, userId);
      if k.None? {
        return Err(Raise(NotFound, UserNotFound));
      }
      if users[k.value].password.None? {
        return Err(Internal);
      }
      users := users[k.value := users[k.value].(password := Some(hashed))];
      r := Ok(());
    }
  }

  /** Ids are unique: a row found by id is the only row with that id, so an
      update by id touches exactly one row. */
  lemma FoundByIdIsUnique(users: seq<User>, nextId: nat, id: nat, j: nat)
    requires IdsIncreasing(users, nextId)
    requires FindById(users, id).Some? && j < |users| && users[j].id == id
    ensures j == FindById(users, id).value
  {
  }
}

=== FILE: verification_codes.dfy ===
/** One-time verification codes (src/auth/services/verification-code.service.ts
    and src/auth/entities/verification-code.entity.ts). The code string is
    generated at random by the source; here the caller supplies it. */
module VerificationCodes {
  import opened Common

  datatype CodeType = Email

  datatype VerificationCode = VerificationCode(
    id: nat,
    email: string,
    code: string,
    is_active: bool,
    codeType: CodeType,
    expires_at: int)

  const ExpiryMinutes: int := 15
  const ExpiryMs: int := ExpiryMinutes * 60 * 1000

  ghost predicate IdsIncreasing(codes: seq<VerificationCode>, nextId: nat)
  {
    && nextId >= 1
    && (forall i, j | 0 <= i < j < |codes| :: codes[i].id < codes[j].id)
    && (forall i | 0 <= i < |codes| :: 1 <= codes[i].id < nextId)
  }

  /** The row matches email, code and type, is active, and expires strictly
      after `now`. */
  predicate Usable(row: VerificationCode, email: string, code: string, codeType: CodeType, now: int)
  {
    row.email == email && row.code == code && row.codeType == codeType && row.is_active && row.expires_at > now
  }

  /** The first usable row, if any. */
  function FindUsable(codes: seq<VerificationCode>, email: string, code: string, codeType: CodeType, now: int): (r: Option<nat>)
    ensures r.Some? ==> r.value < |codes| && Usable(codes[r.value], email, code, codeType, now)
    ensures r.None? <==> forall i | 0 <= i < |codes| :: !Usable(codes[i], email, code, codeType, now)
  {
    if codes == [] then None
    else if Usable(codes[0], email, code, codeType, now) then Some(0)
    else
      match FindUsable(codes[1..], email, code, codeType, now)
      case None => None
      case Some(k) => Some(k + 1)
  }

  /** `update({ id, type }, { is_active: false })`. */
  function DeactivateCode(codes: seq<VerificationCode>, id: nat, codeType: CodeType): (r: seq<VerificationCode>)
    ensures |r| == |codes|
    ensures forall i | 0 <= i < |codes| ::
              r[i] == if codes[i].id == id && codes[i].codeType == codeType then codes[i].(is_active := false) else codes[i]
  {
    if codes == [] then []
    else
      [if codes[0].id == id && codes[0].codeType == codeType then codes[0].(is_active := false) else codes[0]]
      + DeactivateCode(codes[1..], id, codeType)
  }

  class VerificationCodeService {
    var codes: seq<VerificationCode>
    var nextId: nat

    ghost predicate Valid()
      reads this
    {
      IdsIncreasing(codes, nextId)
    }

    constructor ()
      ensures Valid() && codes == [] && nextId == 1
    {
      codes := [];
      nextId := 1;
    }

    /** `createVerificationCode`: stores an active code that expires
        `ExpiryMinutes` after `now` and returns it. */
    method CreateVerificationCode(email: string, codeType: CodeType, code: string, now: int) returns (r: string)
      requires Valid()
      modifies this
      ensures Valid()
      ensures codes == old(codes) + [VerificationCode(old(nextId), email, code, true, codeType, now + ExpiryMs)]
      ensures nextId == old(nextId) + 1
      ensures r == code
    {
      codes := codes + [VerificationCode(nextId, email, code, true, codeType, now + ExpiryMs)];
      nextId := nextId + 1;
      r := code;
    }

    /** `verifyCode`: finds a usable row, deactivates it by id and type and
        returns the row as it was read. */
    method VerifyCode(email: string, code: string, codeType: CodeType, now: int) returns (r: Result<VerificationCode>)
      requires Valid()
      modifies this
      ensures Valid() && nextId == old(nextId)
      ensures FindUsable(old(codes), email, code, codeType, now).None? ==>
                r == Err(Raise(BadRequest, InvalidVerificationCode)) && codes == old(codes)
      ensures FindUsable(old(codes), email, code, codeType, now).Some? ==>
                var row := old(codes)[FindUsable(old(codes), email, code, codeType, now).value];
                r == Ok(row) && codes == DeactivateCode(old(codes), row.id, codeType)
    {
      var k := FindUsable(codes, email, code, codeType, now);
      if k.None? {
        return Err(Raise(BadRequest, InvalidVerificationCode));
      }
      var row := codes[k.value];
      codes := DeactivateCode(codes, row.id, codeType);
      r := Ok(row);
    }
  }

  /** With unique ids, the update by id and type changes the found row alone:
      that row is no longer usable and every other row is as it was. */
  lemma {:induction false} DeactivateCodeOnlyFound(codes: seq<VerificationCode>, nextId: nat, k: nat)
    requires IdsIncreasing(codes, nextId) && k < |codes|
    ensures DeactivateCode(codes, codes[k].id, codes[k].codeType) == codes[k := codes[k].(is_active := false)]
  {
    var r := DeactivateCode(codes, codes[k].id, codes[k].codeType);
    forall i | 0 <= i < |codes| ensures r[i] == codes[k := codes[k].(is_active := false)][i] {
      if i < k { assert codes[i].id < codes[k].id; }
      if i > k { assert codes[k].id < codes[i].id; }
    }
  }

  /** A code verifies once: after a successful verification, a second one
      with the same inputs at the same time finds a different row or none. */
  lemma SingleUse(codes: seq<VerificationCode>, nextId: nat, email: string, code: string, codeType: CodeType, now: int)
    requires IdsIncreasing(codes, nextId)
    requires FindUsable(codes, email, code, codeType, now).Some?
    ensures var k := FindUsable(codes, email, code, codeType, now).value;
            var after := DeactivateCode(codes, codes[k].id, codeType);
            match FindUsable(after, email, code, codeType, now)
            case None => true
            case Some(k2) => k2 != k && after[k2].id != codes[k].id
  {
    var k := FindUsable(codes, email, code, codeType, now).value;
    DeactivateCodeOnlyFound(codes, nextId, k);
  }

  /** A freshly created code verifies for `ExpiryMinutes`, and not from the
      moment it expires. */
  lemma FreshCodeWindow(codes: seq<VerificationCode>, id: nat, email: string, code: string, codeType: CodeType, created: int, now: int)
    ensures var extended := codes + [VerificationCode(id, email, code, true, codeType, created + ExpiryMs)];
            now < created + ExpiryMs ==> FindUsable(extended, email, code, codeType, now).Some?
    ensures var extended := codes + [VerificationCode(id, email, code, true, codeType, created + ExpiryMs)];
            now >= created + ExpiryMs ==>
              FindUsable(extended, email, code, codeType, now) == FindUsable(codes, email, code, codeType, now)
  {
    var extended := codes + [VerificationCode(id, email, code, true, codeType, created + ExpiryMs)];
    assert extended[|codes|] == VerificationCode(id, email, code, true, codeType, created + ExpiryMs);
    FindUsableAppend(codes, extended[|codes|], email, code, codeType, now);
  }

  /** Lookup after appending one row: earlier rows win. */
  lemma {:induction false} FindUsableAppend(codes: seq<VerificationCode>, row: VerificationCode, email: string, code: string, codeType: CodeType, now: int)
    ensures FindUsable(codes + [row], email, code, codeType, now) ==
              if FindUsable(codes, email, code, codeType, now).Some? then FindUsable(codes, email, code, codeType, now)
              else if Usable(row, email, code, codeType, now) then Some(|codes|)
              else None
    decreases |codes|
  {
    if codes != [] {
      assert (codes + [row])[1..] == codes[1..] + [row];
      FindUsableAppend(codes[1..], row, email, code, codeType, now);
    }
  }
}
